=== FILE: README.md ===
# Inventory ledger — a Dafny model

This project models the core of a small inventory and sales system for a shop.
The system keeps a product catalogue (name, SKU, price, stock, minimum stock,
category) and a sale log (product, quantity, price, timestamp) in a hosted
database. Three front ends sit on top of it:

- A terminal application. `ProductManager` and `SalesManager` validate input
  and call the database; `DisplayUtils` reads and checks typed input and shows
  stock status and revenue. `record_sale_flow` strings these together into one
  sale.
- An HTTP back end. Its routes (`API/main.py`) call `SupabaseDB` directly, and
  `SupabaseDB.create_sale` checks and decrements stock itself. `src/logic.py`
  defines input guards (`FlashInventory`) in a class that nothing in the
  program constructs, so the routes hand quantities and prices on unchecked.
- A dashboard, which is not modelled.

The database is an immutable value `Ledger.Db`. It holds both tables in
insertion order (every insert appends) plus the counters that hand out fresh
ids. Every operation is a pure function that returns the new database and a
`Result`, so an error is a value rather than an exception. Prices are whole
cents. A sale's timestamp is a `Stamp`: the instant in seconds together with
its ISO text, whose first ten characters are the day.

The modules follow the program's structure:

| module | models |
|---|---|
| `Common` | result types, Python's `xs[:k]` |
| `Text` | ASCII lower-casing, `needle in hay`, Python's `str` ordering |
| `Ledger` | rows, lookups by id and SKU, inserts, the stock write, sums over sales (`Backend/database.py`) |
| `ProductManager` | `Backend/product_manager.py` |
| `SalesManager` | `Backend/sales_manager.py` |
| `SupabaseDb` | `src/db.py` |
| `FlashInventory` | `src/logic.py` |
| `DisplayUtils` | stock status, revenue total and input checks of `Backend/Display_utils.py` |
| `InventorySystem` | `record_sale_flow` of `Backend/Inventory_system.py` |

Five behaviours of the code worth knowing:

- A sale price of 0 entered at the prompt is not replaced by the listed price.
  It passes the prompt's truthiness test and is then refused by `record_sale`
  (`InventorySystem.ZeroPriceRejected`).
- The terminal sale is not one atomic step. It checks the stock it read, inserts
  the sale, then writes back `read stock − quantity`. The model gives the
  sequential meaning of those steps. The lost-update race between concurrent
  sales is outside it (see "Left out").
- `SupabaseDB.create_product` does not check the SKU, so with no uniqueness
  constraint on the table it stores a SKU twice
  (`SupabaseDb.CreateProductAllowsDuplicateSku`). `ProductManager.add_product`
  refuses a duplicate.
- `SupabaseDB.create_sale` does not refuse a negative quantity: it passes the
  stock check and raises the product's stock
  (`SupabaseDb.NegativeQuantityRaisesStock`). The HTTP route for sales reaches
  it with no guard in between.
- `src/logic.py` imports `DatabaseManager` from `src/db.py`, which defines only
  `SupabaseDB`, and nothing constructs `FlashInventory`. The model therefore
  states the guarded call that `FlashInventory` would hand on, and runs the
  sale call against `SupabaseDB.create_sale` (`FlashInventory.GuardedSale`).

## Model

| member | source | states |
|---|---|---|
| `Common.SliceTo` | Backend/sales_manager.py:129 | `xs[:k]` is a prefix of `xs`; for k ≥ 0 it has min(k, len) elements, and for k < 0 it drops the last −k elements |
| `Text.Lower` | Backend/product_manager.py:70-71 | lower-casing keeps the length, leaves no ASCII capital, turns each capital into the small letter at the same alphabet position, keeps every other character, and returns a string unchanged exactly when it has no capital |
| `Text.ContainsIffOccurs` | Backend/product_manager.py:70-71 | the left-to-right scan reports `needle in hay` exactly when the needle occurs at some position; the empty needle is in every string |
| `Text.BelowTransitive` | Backend/sales_manager.py:126 | the string order used to sort dates is transitive |
| `Text.BelowTotal` | Backend/sales_manager.py:126 | of two different strings, one is below the other |
| `Text.BelowAsymmetric` | Backend/sales_manager.py:126 | no two strings are each below the other |
| `Ledger.FindBySku` | Backend/database.py:52-58 | a lookup by SKU gives nothing exactly when no row has that SKU, and otherwise the first row that has it (exact, case-sensitive match) |
| `Ledger.FindById` | Backend/database.py:44-50 | a lookup by id gives nothing exactly when no row has that id, and otherwise the first row that has it |
| `Ledger.FindAfterAppend` | Backend/database.py:28-34 | after a row is inserted, a lookup still finds an earlier match first and finds the new row only when nothing earlier matches |
| `Ledger.InsertProduct` | Backend/database.py:28-34 | an insert appends one row holding every given column to the catalogue, under an id no existing row of a valid database has, and leaves the sale log alone |
| `Ledger.InsertSale` | Backend/database.py:69-75 | a sale insert appends one sale holding the given product, quantity, price and date, under an id no existing sale of a valid database has, and leaves the catalogue alone |
| `Ledger.SetStock` | Backend/database.py:60-66 | a stock update by id changes the stock of every row with the id to the new value and leaves every other row as it was |
| `Ledger.WithId` | Backend/database.py:60-64 | the rows an update reports back are exactly the rows with that id |
| `Ledger.StockSetLookups` | Backend/database.py:44-66 | after a stock write, the next lookup by id or SKU finds the same row, with the new stock when it is the written product |
| `Ledger.SoldOfAppend` | Backend/database.py:69-75 | recording a sale adds its quantity to its own product's units sold and to no other product's |
| `Ledger.InsertProductKeepsValid` | Backend/database.py:28-34 | inserting a product keeps product ids unique |
| `Ledger.InsertSaleKeepsValid` | Backend/database.py:69-75 | inserting a sale keeps sale ids unique |
| `Ledger.StockSetKeepsValid` | Backend/database.py:60-66 | a stock write changes no id, so ids stay unique |
| `ProductManager.CheckNewProduct` | Backend/product_manager.py:14-21 | a new product passes exactly when name and SKU are non-empty, the price is positive and the initial stock is not negative |
| `ProductManager.AddProduct` | Backend/product_manager.py:11-46 | errors in the source's order (name/SKU, then price, then stock, then a stored SKU), each leaving the database unchanged; success exactly when the input is valid and no row has the SKU, in which case one product with the given fields and minimum stock 5 is appended |
| `ProductManager.AddThenFindBySku` | Backend/product_manager.py:23-46 | a product just added is what the next lookup by its SKU returns |
| `ProductManager.AddProductKeepsInvariants` | Backend/product_manager.py:23-28 | adding a product keeps both SKUs and ids unique |
| `ProductManager.SearchProducts` | Backend/product_manager.py:59-74 | an empty term returns the whole catalogue; otherwise a product is in the result exactly when the lower-cased term occurs in its lower-cased name or SKU |
| `ProductManager.MatchingProducts` | Backend/product_manager.py:68-74 | the matching loop keeps exactly the matching products and never grows the list |
| `ProductManager.SearchConcat` | Backend/product_manager.py:68-74 | search distributes over concatenated catalogues, so results keep catalogue order; a single product is kept exactly when it matches |
| `ProductManager.SearchIgnoresCase` | Backend/product_manager.py:70-71 | searching for the lower-cased term gives the same products as the term itself |
| `ProductManager.LowStockProducts` | Backend/product_manager.py:76-83 | a product is in the low-stock list exactly when its stock is strictly below its minimum |
| `ProductManager.LowStockConcat` | Backend/product_manager.py:82 | the low-stock filter distributes over concatenation, so it keeps catalogue order |
| `ProductManager.AddProductLowStock` | Backend/product_manager.py:31-39 | a newly added product joins the end of the low-stock list exactly when its initial stock is below 5 |
| `ProductManager.UpdateStock` | Backend/product_manager.py:85-94 | a negative stock is refused and writes nothing; otherwise every row with the id takes the new stock, nothing else changes, and the updated rows come back |
| `ProductManager.UpdateThenFind` | Backend/product_manager.py:85-94 | after an accepted update, the next lookup by id reads the new stock |
| `SalesManager.RecordSale` | Backend/sales_manager.py:12-41 | with no price given, an unknown product is refused first; then quantity ≤ 0, then price ≤ 0; success exactly when the quantity and the price used (given, else listed) are positive; the appended sale carries product, quantity, that price and the clock's stamp, and the catalogue is untouched |
| `SalesManager.RecordSaleUnknownProduct` | Backend/sales_manager.py:15-39 | with a price given, a sale for an id no product has is stored, and the id still names no product |
| `SalesManager.RecordSaleKeepsValid` | Backend/sales_manager.py:28-41 | recording a sale keeps sale ids unique |
| `SalesManager.InWindow` | Backend/sales_manager.py:70-75 | a sale is in the window exactly when it is stamped strictly after the cutoff |
| `SalesManager.InWindowConcat` | Backend/sales_manager.py:72-75 | the window filter distributes over concatenated logs, so each in-window sale is kept once and in log order |
| `SalesManager.InWindowSingle` | Backend/sales_manager.py:72-75 | a one-sale log keeps its sale exactly when it is after the cutoff |
| `SalesManager.SalesReport` | Backend/sales_manager.py:64-100 | the report's count, revenue and items are those of the sales inside the window, and all are zero when no sale is inside it |
| `SalesManager.WindowMonotone` | Backend/sales_manager.py:70-75 | an earlier cutoff never counts fewer sales |
| `SalesManager.ReportMonotone` | Backend/sales_manager.py:64-100 | a report over more days counts at least as many sales |
| `SalesManager.RecordSaleReported` | Backend/sales_manager.py:86-94 | a sale recorded inside the window adds one sale, its line total and its quantity to the next report |
| `SalesManager.DailySales` | Backend/sales_manager.py:102-129 | the breakdown has strictly descending dates, each entry equals the count and sums of its day's sales, its dates are days that have sales, it holds min(days, number of days) entries for `days` ≥ 0 and drops the last −days entries for `days` < 0, all days when `days` is large enough, and every day it leaves out is older than every day it keeps |
| `SalesManager.AddToDaysCorrect` | Backend/sales_manager.py:109-123 | counting one more sale into a correct descending breakdown gives a correct descending breakdown of the longer log |
| `SalesManager.GroupByDayCorrect` | Backend/sales_manager.py:108-126 | grouping all sales gives one entry per distinct day, in descending date order, each with exactly that day's count, revenue and items |
| `SalesManager.DatesCard` | Backend/sales_manager.py:113-119 | a descending breakdown has as many entries as distinct dates: no day appears twice |
| `SalesManager.AddToDaysTotals` | Backend/sales_manager.py:121-123 | counting a sale into the breakdown adds exactly one sale, its line total and its quantity to the breakdown's totals |
| `SalesManager.GroupByDayTotals` | Backend/sales_manager.py:108-123 | the entries of the full breakdown add up to the count, revenue and items of all sales: nothing is lost or counted twice |
| `SalesManager.ReportMatchesDaily` | Backend/sales_manager.py:86-94 | when every sale lies inside the window, the report and the full daily breakdown agree on count, revenue and items |
| `SalesManager.AllInWindow` | Backend/sales_manager.py:70-75 | when every sale is after the cutoff, the window holds all sales in order |
| `SupabaseDb.CreateProduct` | src/db.py:17-28 | always succeeds; appends one row holding the four given values, with minimum stock 5, category "General" and an empty description |
| `SupabaseDb.CreateProductAllowsDuplicateSku` | src/db.py:17-28 | creating a product under a stored SKU leaves two rows with that SKU |
| `SupabaseDb.UpdateProductStock` | src/db.py:37-42 | always succeeds; every row with the id takes the new stock (negative allowed), nothing else changes, and the updated rows come back |
| `SupabaseDb.CreateSale` | src/db.py:46-74 | an unknown product gives "Product not found" and stock below the quantity gives the available amount, both writing nothing; success exactly when the product exists with enough stock, in which case the sale is appended (dated by the given date, else the clock) and the product's stock becomes the read stock minus the quantity |
| `SupabaseDb.CreateSaleConserves` | src/db.py:53-70 | for every product, stock plus units sold is the same before and after `create_sale` |
| `SupabaseDb.SaleConserves` | src/db.py:65-70 | inserting a sale and writing back the read stock minus its quantity keeps stock plus units sold for every product |
| `SupabaseDb.NegativeQuantityRaisesStock` | src/db.py:53-70 | for an existing product with stock ≥ 0, a negative quantity is accepted, the sale stored, and the stock raised by its magnitude |
| `SupabaseDb.CreateSaleKeepsStockNonNegative` | src/db.py:53-70 | when no stock is negative, `create_sale` makes none negative |
| `SupabaseDb.CreateSaleKeepsValid` | src/db.py:57-70 | `create_sale` keeps ids unique |
| `SupabaseDb.ListingOf` | src/db.py:78 | the joined `products(name, sku)` is present exactly when a product has the id, and then holds that product's name and SKU |
| `SupabaseDb.GetSales` | src/db.py:76-84 | one row per sale, in order, whose `quantity` equals `quantity_sold` and whose join holds the sale's product's name and SKU, or nothing exactly when no product has the sale's product id |
| `SupabaseDb.QuantityColumnIsItemsSold` | src/db.py:80-81 | rows whose `quantity` copies `quantity_sold` sale by sale add up to the units sold |
| `SupabaseDb.GetSalesQuantityTotal` | src/db.py:76-84 | the `quantity` column of the sale listing sums to the items sold the report counts over the same sales |
| `DisplayUtils.StockStatus` | Backend/Display_utils.py:18-28 | OUT exactly when the stock (missing read as 0) is 0; LOW exactly when it is non-zero and below the minimum (missing read as 5); OK otherwise |
| `DisplayUtils.StatusAgreesWithLowStock` | Backend/Display_utils.py:22-28 | a stored product is flagged OUT or LOW exactly when it is in the low-stock list or has no stock; an empty product with minimum ≤ 0 is flagged OUT but is not in that list |
| `DisplayUtils.MissingFieldAddsNothing` | Backend/Display_utils.py:65-68 | a sales row missing its quantity or its price adds nothing to the displayed total |
| `DisplayUtils.DisplayedRevenueIsRevenue` | Backend/Display_utils.py:52-73 | for stored sales the displayed total revenue equals the revenue the report sums |
| `DisplayUtils.CheckProductInput` | Backend/Display_utils.py:139-173 | errors in prompt order (name, SKU, price ≤ 0, negative stock); accepted exactly when all pass, keeping the values and turning an empty category into "General" |
| `DisplayUtils.AcceptedInputPassesManager` | Backend/Display_utils.py:139-173 | the prompt's product checks are at least as strict as `add_product`'s: on accepted values only a stored SKU could be refused (the terminal never makes that call, see "Left out") |
| `DisplayUtils.CheckSaleInput` | Backend/Display_utils.py:185-208 | errors in prompt order (empty SKU, quantity ≤ 0, negative price); accepted exactly when the SKU is non-empty, the quantity positive and the price missing or not negative, so an entered 0 passes |
| `FlashInventory.AddProduct` | src/logic.py:7-14 | errors in order (name/SKU, price ≤ 0, negative stock); accepted exactly when all pass, handing the arguments on unchanged |
| `FlashInventory.AddProductGuardsAgree` | src/logic.py:7-14 | the guards of `FlashInventory.add_product` accept exactly the new products `ProductManager.add_product`'s guards accept |
| `FlashInventory.UpdateProduct` | src/logic.py:22-25 | refused exactly when no field is given; otherwise the fields are handed on unchanged |
| `FlashInventory.UpdateStockGuardsDiffer` | src/logic.py:22-25 | a stock change through `update_product` passes for every value, while `ProductManager.update_stock` refuses exactly the negative ones; an empty update is refused |
| `FlashInventory.RecordSale` | src/logic.py:30-35 | quantity is checked before price; accepted exactly when both are positive, handing the arguments on unchanged |
| `FlashInventory.GuardedSale` | src/logic.py:30-35 | a guarded sale run by `create_sale` keeps stock non-negative, writes nothing when refused, and when recorded has positive quantity and price, appends the sale and takes exactly the quantity off the product's stock |
| `InventorySystem.RecordSaleFlow` | Backend/Inventory_system.py:152-187 | the database changes only when the sale is recorded; "stock update failed" never happens; input errors (carrying the prompt's error), an unknown SKU and not enough stock (with the available and requested amounts) are each reported exactly when they occur; a rejected sale carries `record_sale`'s error and a recorded one is the sale `record_sale` returns; the sale is recorded exactly when the input passes, the SKU is found, the stock suffices and `record_sale` accepts; a recorded sale has the product's id, the quantity, a positive price (the entered one when given, else the product's listed price), is appended to the log, and sets the product's stock to the read stock minus the quantity |
| `InventorySystem.Sell` | Backend/Inventory_system.py:169-185 | after the stock check, the sale is rejected exactly when `record_sale` refuses, carrying its error, and then nothing changes; otherwise the sale `record_sale` returns is appended and the stock is set to the read stock minus the quantity |
| `InventorySystem.ZeroPriceRejected` | Backend/Inventory_system.py:170-177 | an entered price of 0 for an in-stock product is refused by `record_sale`, and nothing changes |
| `InventorySystem.RecordSaleFlowKeepsStockNonNegative` | Backend/Inventory_system.py:165-185 | when no stock is negative, a sale through the flow makes none negative |
| `InventorySystem.RecordSaleFlowConserves` | Backend/Inventory_system.py:165-185 | with unique ids, stock plus units sold is the same for every product before and after the flow |
| `InventorySystem.RecordSaleFlowKeepsValid` | Backend/Inventory_system.py:169-185 | the flow keeps ids unique |
| `InventorySystem.SellKeepsValid` | Backend/Inventory_system.py:169-185 | recording the sale and writing back the stock keeps ids unique |
| `InventorySystem.WidgetScenario` | Backend/Inventory_system.py:152-187 | adding "Widget" (SKU W1, 9.99, stock 10) to an empty store and selling 3 at the listed price records one sale worth 29.97 and leaves stock 7 |

## Left out

- Failures of the hosted database are not modelled: network, authentication and schema errors, and an insert that returns no rows. Every call is taken to succeed as the service documents it.
- Concurrency is not modelled. In particular, the lost update between two sales that both read the same stock before either writes is outside a sequential model; the model gives each operation's effect when calls run one at a time.
- Ordering by the service (`order by name` in `get_all_products`, `order by sale_date desc` in `get_all_sales`) is not modelled. Tables are kept in insertion order, so the search and low-stock lists come out in insertion order where the program lists them by name.
- Floating point is not modelled: prices are whole cents and `float(...)` conversions are identities. `average_sale_value` is left out because it divides.
- Datetime parsing is not modelled. Each stamp carries its instant and its ISO text; the report's `start_date`/`end_date` strings are not produced.
- Unicode is left out: `str.lower()` is modelled for ASCII letters only. `strip()`, and the number parsing with its "Please enter a valid …" errors, are left out; validators take the already stripped and parsed values.
- `Backend/Inventory_system.py` outside `record_sale_flow` (menus, other flows, `add_product_flow`) is not part of this model. In particular, `add_product_flow` calls `add_product` with a `stock` keyword the method does not accept.
- Pass-through reads are not modelled as operations: `get_all_products`, `get_product_by_sku`, `get_all_sales`, `get_recent_sales`, `get_sales_by_product`, `get_products`, `get_product_by_id`, `delete_product` and `get_sales` of `FlashInventory`. They return a table or a lookup unchanged. Lookups by id and SKU are `Ledger.FindById` and `Ledger.FindBySku`.
- The store class behind `FlashInventory` is not part of this model. Its operations return the call they hand on (`FlashInventory.Call`), and only the sale call is run, against `SupabaseDb.CreateSale`.
- `SupabaseDb.CreateProduct`: the column defaults (minimum stock 5, category "General", empty description) are an assumption about the table, which is not part of this model.
- `SalesManager.RecordSale`: assumes `sales.product_id` has no foreign key to `products.id`, so an insert for an unknown id succeeds (`SalesManager.RecordSaleUnknownProduct`). The schema is not part of this model. The reads that embed `products(name, sku)` suggest such a key, and under it the insert would fail and `record_sale` would return "Error recording sale: …". Nothing in the model deletes a product, so these sales are the only ones whose `SupabaseDb.ListingOf` join is empty.
- `SupabaseDb.CreateProductAllowsDuplicateSku`: assumes the `products` table has no uniqueness constraint on `sku`; the schema is not part of this model, and with such a constraint the second insert would fail as a storage error.
- `Backend/database.py` is modelled only through the lookups, inserts and stock write of `Ledger`. Its connection test, `Backend/main.py` and `Frontend/App.py` are not part of this model. The routes of `API/main.py` are taken as direct calls of `SupabaseDB`; their request parsing is not modelled.
- The argument defaults `initial_stock=0` and `days=30`/`days=7` are not modelled separately. Callers in the model always pass the value.
- Printing, prompting and screen handling in `DisplayUtils` are left out, except for the stock status, the revenue total and the two input checks.

=== FILE: common.dfy ===
/** Shared result types of the inventory ledger, and Python's `xs[:k]` slice. */
module Common {

  datatype Option<+T> = None | Some(value: T)

  /** The failures the managers report. Every one is a plain message in the
      source; the two messages that embed a value keep that value here. */
  datatype Error =
    | Message(text: string)          // a fixed message such as "Price must be greater than 0!"
    | SkuExists(sku: string)         // "SKU '<sku>' already exists!"
    | OutOfStock(available: int)     // "Not enough stock (Available: <n>)"

  /** `(value, None)` or `(None, error)` in the source's tuple convention. */
  datatype Result<+T> = Ok(value: T) | Err(error: Error)

  /** Python's `xs[:k]`: the first `k` elements when `k >= 0`, and all but the
      last `-k` elements when `k < 0`; never an error. */
  function SliceTo<T>(xs: seq<T>, k: int): (r: seq<T>)
    ensures r <= xs
    ensures 0 <= k ==> |r| == if k <= |xs| then k else |xs|
    ensures k < 0 ==> |r| == if -k <= |xs| then |xs| + k else 0
  {
    if 0 <= k then
      if k <= |xs| then xs[..k] else xs
    else
      if -k <= |xs| then xs[..|xs| + k] else []
  }
}

=== FILE: display_utils.dfy ===
/** The decisions inside `DisplayUtils` of the terminal application: the
    stock status shown per product, the revenue total under the sales table,
    and the checks on a product or sale typed at the prompt. Input is taken as
    already stripped and parsed; printing and prompting are not modelled. */
module DisplayUtils {
  import opened Common
  import opened Ledger
  import ProductManager

  // ------------------------------------------------------------ stock status

  /** The three markers of the status column: OUT, LOW and OK. */
  datatype Status = Out | Low | Fine

  /** `dict.get(key, default)` for a field that may be missing. */
  function OrElse(v: Option<int>, default: int): int {
    if v.Some? then v.value else default
  }

  /** Status of a product row whose stock and minimum may be missing: a missing
      stock reads as 0 and a missing minimum as 5. */
  function StockStatus(stock: Option<int>, minStock: Option<int>): (r: Status)
    ensures r == Out <==> OrElse(stock, 0) == 0
    ensures r == Low <==> OrElse(stock, 0) != 0 && OrElse(stock, 0) < OrElse(minStock, DefaultMinStock)
  {
    var s := OrElse(stock, 0);
    if s == 0 then Out
    else if s < OrElse(minStock, DefaultMinStock) then Low
    else Fine
  }

  /** The table flags a stored product (OUT or LOW) exactly when the low-stock
      list holds it or it is out of stock; an empty product whose minimum is 0
      or less is flagged OUT although the low-stock list leaves it out. */
  lemma StatusAgreesWithLowStock(ps: seq<Product>, p: Product)
    requires p in ps
    ensures StockStatus(Some(p.stockQuantity), Some(p.minStockLevel)) != Fine <==>
              p in ProductManager.LowStockProducts(ps) || p.stockQuantity == 0
    ensures p.stockQuantity == 0 && p.minStockLevel <= 0 ==>
              StockStatus(Some(p.stockQuantity), Some(p.minStockLevel)) == Out &&
              p !in ProductManager.LowStockProducts(ps)
  {
  }

  // ------------------------------------------------------------ sales total

  /** The two fields of a sales row the total reads; either may be missing. */
  datatype SaleLine = SaleLine(quantitySold: Option<int>, salePrice: Option<int>)

  function LineOf(s: Sale): SaleLine {
    SaleLine(Some(s.quantitySold), Some(s.salePrice))
  }

  /** The "Total revenue" under the sales table: Σ quantity × price with a
      missing field read as 0. */
  function DisplayedRevenue(lines: seq<SaleLine>): int {
    if |lines| == 0 then 0
    else
      var l := lines[|lines| - 1];
      DisplayedRevenue(lines[..|lines| - 1]) + OrElse(l.quantitySold, 0) * OrElse(l.salePrice, 0)
  }

  /** A row missing its quantity or its price adds nothing to the total. */
  lemma MissingFieldAddsNothing(lines: seq<SaleLine>, l: SaleLine)
    requires l.quantitySold.None? || l.salePrice.None?
    ensures DisplayedRevenue(lines + [l]) == DisplayedRevenue(lines)
  {
    assert (lines + [l])[..|lines|] == lines;
  }

  /** For stored sales the displayed total is the ledger's revenue, the same
      sum the sales report uses. */
  lemma {:induction false} DisplayedRevenueIsRevenue(sales: seq<Sale>)
    ensures DisplayedRevenue(seq(|sales|, i requires 0 <= i < |sales| => LineOf(sales[i]))) == Revenue(sales)
    decreases |sales|
  {
    if 0 < |sales| {
      var init := sales[..|sales| - 1];
      var lines := seq(|sales|, i requires 0 <= i < |sales| => LineOf(sales[i]));
      assert lines[..|lines| - 1] == seq(|init|, i requires 0 <= i < |init| => LineOf(init[i]));
      DisplayedRevenueIsRevenue(init);
    }
  }

  // ---------------------------------------------------------- product input

  const NameRequired := "Product name is required!"
  const SkuRequired := "SKU is required!"
  const PriceNotPositive := "Price must be greater than 0!"
  const StockNegative := "Stock cannot be negative!"

  datatype ProductInput = ProductInput(
    name: string, sku: string, price: int, stock: int, category: string, description: string)

  /** `get_product_input` on already-read values: the first failing check
      wins, and an empty category becomes "General". */
  function CheckProductInput(name: string, sku: string, price: int, stock: int,
                             category: string, description: string): (r: Result<ProductInput>)
    ensures name == [] ==> r == Err(Message(NameRequired))
    ensures name != [] && sku == [] ==> r == Err(Message(SkuRequired))
    ensures name != [] && sku != [] && price <= 0 ==> r == Err(Message(PriceNotPositive))
    ensures name != [] && sku != [] && 0 < price && stock < 0 ==> r == Err(Message(StockNegative))
    ensures r.Ok? <==> name != [] && sku != [] && 0 < price && 0 <= stock
    ensures r.Ok? ==>
              && r.value.name == name && r.value.sku == sku
              && r.value.price == price && r.value.stock == stock
              && r.value.category == (if category == [] then DefaultCategory else category)
              && r.value.description == description
  {
    if name == [] then Err(Message(NameRequired))
    else if sku == [] then Err(Message(SkuRequired))
    else if price <= 0 then Err(Message(PriceNotPositive))
    else if stock < 0 then Err(Message(StockNegative))
    else Ok(ProductInput(name, sku, price, stock, if category == [] then DefaultCategory else category, description))
  }

  /** The prompt's checks are at least as strict as the manager's: on values
      the prompt accepts, `add_product` could refuse only a stored SKU. (The
      terminal never makes this call with the prompt's values: it passes a
      `stock` keyword that `add_product` does not take.) */
  lemma AcceptedInputPassesManager(db: Db, name: string, sku: string, price: int, stock: int,
                                   category: string, description: string)
    requires CheckProductInput(name, sku, price, stock, category, description).Ok?
    ensures var i := CheckProductInput(name, sku, price, stock, category, description).value;
            var r := ProductManager.AddProduct(db, i.name, i.price, i.sku, i.stock, i.category, i.description);
            r.result.Err? <==> r.result == Err(SkuExists(sku))
  {
  }

  // ------------------------------------------------------------- sale input

  const ProductSkuRequired := "Product SKU is required!"
  const QuantityNotPositive := "Quantity must be greater than 0!"
  const SalePriceNotPositive := "Sale price must be greater than 0!"

  /** A sale as typed: `salePrice` is None when the price was left empty. */
  datatype SaleInput = SaleInput(productSku: string, quantity: int, salePrice: Option<int>)

  /** `get_sale_input` on already-read values. The price test is a
      truthiness test, so an entered 0 passes and only a negative price is
      refused. */
  function CheckSaleInput(productSku: string, quantity: int, priceEntry: Option<int>): (r: Result<SaleInput>)
    ensures productSku == [] ==> r == Err(Message(ProductSkuRequired))
    ensures productSku != [] && quantity <= 0 ==> r == Err(Message(QuantityNotPositive))
    ensures productSku != [] && 0 < quantity && priceEntry.Some? && priceEntry.value < 0 ==>
              r == Err(Message(SalePriceNotPositive))
    ensures r.Ok? <==> productSku != [] && 0 < quantity && (priceEntry.None? || 0 <= priceEntry.value)
    ensures r.Ok? ==> r.value == SaleInput(productSku, quantity, priceEntry)
  {
    if productSku == [] then Err(Message(ProductSkuRequired))
    else if quantity <= 0 then Err(Message(QuantityNotPositive))
    else if priceEntry.Some? && priceEntry.value != 0 && priceEntry.value <= 0 then
      Err(Message(SalePriceNotPositive))
    else Ok(SaleInput(productSku, quantity, priceEntry))
  }
}

=== FILE: flash_inventory.dfy ===
/** `FlashInventory` (src/logic.py): input guards in front of a database
    object. No route or front end constructs this class; the HTTP routes call
    `SupabaseDB` directly, without these guards (see
    `SupabaseDb.NegativeQuantityRaisesStock`). Its store class is not part of
    this model, so each operation returns the store call it would make, as a
    value; `RecordSale`'s call is then run against the `create_sale` of
    src/db.py. */
module FlashInventory {
  import opened Common
  import opened Ledger
  import ProductManager
  import SupabaseDb

  /** A keyword argument value of `update_product`. */
  datatype Field = Str(text: string) | Number(number: int) | Null

  /** The store call an operation delegates to, with its arguments. */
  datatype Call =
    | CreateProduct(name: string, sku: string, price: int, stockQuantity: int,
                    category: Option<string>, description: Option<string>)
    | UpdateProduct(pid: nat, fields: map<string, Field>)
    | CreateSale(productId: nat, quantity: int, salePrice: int, saleDate: Option<Stamp>)

  const NameSkuRequired := "Name and SKU are required"
  const PriceNotPositive := "Price must be > 0"
  const InvalidStock := "Invalid stock"
  const NoData := "No data to update"
  const QuantityNotPositive := "Quantity must be > 0"
  const SalePriceNotPositive := "Sale price must be > 0"

  /** `add_product`: empty name or SKU, then price, then stock are refused;
      otherwise the arguments are passed on unchanged. */
  function AddProduct(name: string, sku: string, price: int, stockQuantity: int,
                      category: Option<string>, description: Option<string>): (r: Result<Call>)
    ensures name == [] || sku == [] ==> r == Err(Message(NameSkuRequired))
    ensures name != [] && sku != [] && price <= 0 ==> r == Err(Message(PriceNotPositive))
    ensures name != [] && sku != [] && 0 < price && stockQuantity < 0 ==> r == Err(Message(InvalidStock))
    ensures r.Ok? <==> name != [] && sku != [] && 0 < price && 0 <= stockQuantity
    ensures r.Ok? ==> r.value == CreateProduct(name, sku, price, stockQuantity, category, description)
  {
    if name == [] || sku == [] then Err(Message(NameSkuRequired))
    else if price <= 0 then Err(Message(PriceNotPositive))
    else if stockQuantity < 0 then Err(Message(InvalidStock))
    else Ok(CreateProduct(name, sku, price, stockQuantity, category, description))
  }

  /** The guards of `FlashInventory.add_product` and those of the terminal
      manager accept exactly the same new products, in the same order of
      checks. (The HTTP routes call `SupabaseDB` directly and pass through
      neither.) */
  lemma AddProductGuardsAgree(name: string, sku: string, price: int, stockQuantity: int,
                              category: Option<string>, description: Option<string>)
    ensures AddProduct(name, sku, price, stockQuantity, category, description).Ok? <==>
              ProductManager.CheckNewProduct(name, sku, price, stockQuantity).None?
  {
  }

  /** `update_product(pid, **kwargs)`: refused only when no keyword is given;
      a keyword given as None still counts. */
  function UpdateProduct(pid: nat, fields: map<string, Field>): (r: Result<Call>)
    ensures r.Err? <==> |fields| == 0
    ensures r.Err? ==> r.error == Message(NoData)
    ensures r.Ok? ==> r.value == Call.UpdateProduct(pid, fields)
  {
    if |fields| == 0 then Err(Message(NoData)) else Ok(Call.UpdateProduct(pid, fields))
  }

  /** A stock change through `update_product` passes the guard for every value,
      negative ones included, while the terminal's `update_stock` refuses
      exactly the negative ones; an empty update is refused. */
  lemma UpdateStockGuardsDiffer(db: Db, pid: nat, n: int)
    ensures UpdateProduct(pid, map["stock_quantity" := Number(n)]).Ok?
    ensures ProductManager.UpdateStock(db, pid, n).result.Err? <==> n < 0
    ensures UpdateProduct(pid, map[]).Err?
  {
    assert "stock_quantity" in map["stock_quantity" := Number(n)];
  }

  /** `record_sale`: quantity is checked before price, and both must be
      positive; otherwise the arguments go to `create_sale` unchanged. */
  function RecordSale(productId: nat, quantity: int, salePrice: int, saleDate: Option<Stamp>): (r: Result<Call>)
    ensures quantity <= 0 ==> r == Err(Message(QuantityNotPositive))
    ensures 0 < quantity && salePrice <= 0 ==> r == Err(Message(SalePriceNotPositive))
    ensures r.Ok? <==> 0 < quantity && 0 < salePrice
    ensures r.Ok? ==> r.value == CreateSale(productId, quantity, salePrice, saleDate)
  {
    if quantity <= 0 then Err(Message(QuantityNotPositive))
    else if salePrice <= 0 then Err(Message(SalePriceNotPositive))
    else Ok(CreateSale(productId, quantity, salePrice, saleDate))
  }

  /** The guarded sale, carried out by `create_sale`: a recorded sale has a
      positive quantity and price, takes exactly that quantity off the
      product's stock without making it negative, and a refused one writes
      nothing. */
  lemma GuardedSale(db: Db, productId: nat, quantity: int, salePrice: int, saleDate: Option<Stamp>, now: Stamp)
    requires StockNonNegative(db.products)
    ensures var c := RecordSale(productId, quantity, salePrice, saleDate);
            c.Ok? ==>
              var r := SupabaseDb.CreateSale(db, c.value.productId, c.value.quantity, c.value.salePrice,
                                            c.value.saleDate, now);
              && StockNonNegative(r.db.products)
              && (r.result.Err? ==> r.db == db)
              && (r.result.Ok? ==>
                    && 0 < r.result.value.quantitySold && 0 < r.result.value.salePrice
                    && r.db.sales == db.sales + [r.result.value]
                    && StockOf(r.db.products, productId) ==
                         StockOf(db.products, productId) - quantity)
  {
    var c := RecordSale(productId, quantity, salePrice, saleDate);
    if c.Ok? {
      var r := SupabaseDb.CreateSale(db, productId, quantity, salePrice, saleDate, now);
      SupabaseDb.CreateSaleKeepsStockNonNegative(db, productId, quantity, salePrice, saleDate, now);
      SupabaseDb.CreateSaleConserves(db, productId, quantity, salePrice, saleDate, now, productId);
      if r.result.Ok? {
        SoldOfAppend(db.sales, r.result.value, productId);
      }
    }
  }
}

=== FILE: inventory_system.dfy ===
/** `record_sale_flow` of the terminal application as one sequential state
    transition: check the typed input, look the product up by SKU, check its
    stock, record the sale through `SalesManager`, then write the decremented
    stock through `ProductManager`. */
module InventorySystem {
  import opened Common
  import opened Ledger
  import ProductManager
  import SalesManager
  import DisplayUtils
  import SupabaseDb

  /** What the flow reports to the user. */
  datatype Outcome =
    | InputRejected(error: Error)                  // the prompt refused the input
    | UnknownSku                                   // "Product not found! Please check the SKU."
    | NotEnoughStock(available: int, requested: int)
    | SaleRejected(error: Error)                   // `record_sale` refused
    | Recorded(sale: Sale)                         // "Sale recorded successfully!"
    | StockUpdateFailed(sale: Sale, error: Error)  // "Sale recorded but stock update failed"

  datatype FlowStep = FlowStep(db: Db, outcome: Outcome)

  /** The flow for the values typed at the prompt; `now` is the service clock
      that stamps the sale. */
  function RecordSaleFlow(db: Db, productSku: string, quantity: int, priceEntry: Option<int>, now: Stamp): (r: FlowStep)
    ensures !r.outcome.Recorded? ==> r.db == db
    ensures !r.outcome.StockUpdateFailed?
    ensures r.outcome.InputRejected? <==> DisplayUtils.CheckSaleInput(productSku, quantity, priceEntry).Err?
    ensures r.outcome.InputRejected? ==>
              DisplayUtils.CheckSaleInput(productSku, quantity, priceEntry) == Err(r.outcome.error)
    ensures r.outcome.UnknownSku? <==>
              DisplayUtils.CheckSaleInput(productSku, quantity, priceEntry).Ok? &&
              FindBySku(db.products, productSku).None?
    ensures r.outcome.NotEnoughStock? <==>
              && DisplayUtils.CheckSaleInput(productSku, quantity, priceEntry).Ok?
              && FindBySku(db.products, productSku).Some?
              && FindBySku(db.products, productSku).value.stockQuantity < quantity
    ensures r.outcome.NotEnoughStock? ==>
              && FindBySku(db.products, productSku).Some?
              && r.outcome.available == FindBySku(db.products, productSku).value.stockQuantity
              && r.outcome.requested == quantity
              && r.outcome.available < quantity
    ensures r.outcome.Recorded? ==>
              var p := FindBySku(db.products, productSku).value;
              && FindBySku(db.products, productSku).Some?
              && 0 < quantity <= p.stockQuantity
              && r.outcome.sale.productId == p.id
              && r.outcome.sale.quantitySold == quantity
              && 0 < r.outcome.sale.salePrice
              && (priceEntry.Some? ==> r.outcome.sale.salePrice == priceEntry.value)
              && r.db.sales == db.sales + [r.outcome.sale]
              && StockSetTo(db.products, r.db.products, p.id, p.stockQuantity - quantity)
    ensures r.outcome.Recorded? <==>
              && DisplayUtils.CheckSaleInput(productSku, quantity, priceEntry).Ok?
              && FindBySku(db.products, productSku).Some?
              && quantity <= FindBySku(db.products, productSku).value.stockQuantity
              && SalesManager.RecordSale(db, FindBySku(db.products, productSku).value.id,
                                         quantity, priceEntry, now).result.Ok?
    ensures r.outcome.SaleRejected? ==>
              && FindBySku(db.products, productSku).Some?
              && SalesManager.RecordSale(db, FindBySku(db.products, productSku).value.id,
                                         quantity, priceEntry, now).result == Err(r.outcome.error)
    ensures r.outcome.Recorded? ==>
              SalesManager.RecordSale(db, FindBySku(db.products, productSku).value.id,
                                      quantity, priceEntry, now).result == Ok(r.outcome.sale)
    ensures r.outcome.Recorded? && priceEntry.None? ==>
              var p := FindBySku(db.products, productSku).value;
              && FindById(db.products, p.id).Some?
              && r.outcome.sale.salePrice == FindById(db.products, p.id).value.price
  {
    match DisplayUtils.CheckSaleInput(productSku, quantity, priceEntry)
    case Err(e) => FlowStep(db, InputRejected(e))
    case Ok(input) =>
      match FindBySku(db.products, input.productSku)
      case None => FlowStep(db, UnknownSku)
      case Some(p) =>
        if p.stockQuantity < input.quantity then FlowStep(db, NotEnoughStock(p.stockQuantity, input.quantity))
        else Sell(db, p, input.quantity, input.salePrice, now)
  }

  /** The last two steps of the flow once the stock check has passed: record
      the sale, then write back the stock read at the start minus the quantity. */
  function Sell(db: Db, p: Product, quantity: int, priceEntry: Option<int>, now: Stamp): (r: FlowStep)
    requires quantity <= p.stockQuantity
    ensures r.outcome.SaleRejected? || r.outcome.Recorded?
    ensures r.outcome.SaleRejected? ==> r.db == db
    ensures r.outcome.SaleRejected? <==> SalesManager.RecordSale(db, p.id, quantity, priceEntry, now).result.Err?
    ensures r.outcome.SaleRejected? ==>
              SalesManager.RecordSale(db, p.id, quantity, priceEntry, now).result == Err(r.outcome.error)
    ensures r.outcome.Recorded? ==>
              && SalesManager.RecordSale(db, p.id, quantity, priceEntry, now).result == Ok(r.outcome.sale)
              && r.db.sales == db.sales + [r.outcome.sale]
              && StockSetTo(db.products, r.db.products, p.id, p.stockQuantity - quantity)
  {
    var s := SalesManager.RecordSale(db, p.id, quantity, priceEntry, now);
    match s.result
    case Err(e) => FlowStep(s.db, SaleRejected(e))
    case Ok(sale) =>
      var u := ProductManager.UpdateStock(s.db, p.id, p.stockQuantity - quantity);
      match u.result
      case Err(e) => FlowStep(u.db, StockUpdateFailed(sale, e))
      case Ok(_) => FlowStep(u.db, Recorded(sale))
  }

  /** An entered price of 0 gets past the prompt but `record_sale` refuses it:
      no sale, no stock change. */
  lemma ZeroPriceRejected(db: Db, productSku: string, quantity: int, now: Stamp)
    requires productSku != [] && 0 < quantity
    requires FindBySku(db.products, productSku).Some?
    requires quantity <= FindBySku(db.products, productSku).value.stockQuantity
    ensures RecordSaleFlow(db, productSku, quantity, Some(0), now) ==
              FlowStep(db, SaleRejected(Message(SalesManager.SalePriceNotPositive)))
  {
  }

  /** The flow keeps every product's stock at zero or above. */
  lemma RecordSaleFlowKeepsStockNonNegative(db: Db, productSku: string, quantity: int,
                                            priceEntry: Option<int>, now: Stamp)
    requires StockNonNegative(db.products)
    ensures StockNonNegative(RecordSaleFlow(db, productSku, quantity, priceEntry, now).db.products)
  {
  }

  /** With unique ids, a sale through the flow moves units from stock to the
      sale log: stock plus units sold is unchanged for every product, so
      sequential sales never sell more than was in stock. */
  lemma RecordSaleFlowConserves(db: Db, productSku: string, quantity: int, priceEntry: Option<int>,
                                now: Stamp, pid: nat)
    requires Valid(db)
    ensures var r := RecordSaleFlow(db, productSku, quantity, priceEntry, now);
            StockOf(r.db.products, pid) + SoldOf(r.db.sales, pid) ==
              StockOf(db.products, pid) + SoldOf(db.sales, pid)
  {
    var r := RecordSaleFlow(db, productSku, quantity, priceEntry, now);
    if r.outcome.Recorded? {
      var p := FindBySku(db.products, productSku).value;
      var i := IndexOf(db.products, BySku(productSku));
      assert FindById(db.products, p.id) == Some(p) by {
        var j := IndexOf(db.products, ById(p.id));
        assert db.products[i].id == p.id;
        assert j == i;
      }
      SupabaseDb.SaleConserves(db, r.db, r.outcome.sale, p.stockQuantity - quantity, pid);
    }
  }

  lemma RecordSaleFlowKeepsValid(db: Db, productSku: string, quantity: int, priceEntry: Option<int>, now: Stamp)
    requires Valid(db)
    ensures Valid(RecordSaleFlow(db, productSku, quantity, priceEntry, now).db)
  {
    var r := RecordSaleFlow(db, productSku, quantity, priceEntry, now);
    if r.outcome.Recorded? {
      var p := FindBySku(db.products, productSku).value;
      assert r == Sell(db, p, quantity, priceEntry, now);
      SellKeepsValid(db, p, quantity, priceEntry, now);
    }
  }

  lemma SellKeepsValid(db: Db, p: Product, quantity: int, priceEntry: Option<int>, now: Stamp)
    requires Valid(db)
    requires quantity <= p.stockQuantity
    ensures Valid(Sell(db, p, quantity, priceEntry, now).db)
  {
    var s := SalesManager.RecordSale(db, p.id, quantity, priceEntry, now);
    if s.result.Ok? {
      var u := ProductManager.UpdateStock(s.db, p.id, p.stockQuantity - quantity);
      assert Valid(s.db) by {
        SalesManager.RecordSaleKeepsValid(db, p.id, quantity, priceEntry, now);
      }
      assert Valid(u.db) by {
        StockSetKeepsValid(s.db, u.db, p.id, p.stockQuantity - quantity);
      }
      assert Sell(db, p, quantity, priceEntry, now).db == u.db;
    } else {
      assert Sell(db, p, quantity, priceEntry, now).db == db;
    }
  }

  /** A product "Widget", SKU "W1", 9.99 with 10 in stock; selling 3 at the
      listed price leaves 7 in stock and one sale worth 29.97. */
  lemma WidgetScenario(now: Stamp)
    ensures var empty := Db([], [], 0, 0);
            var added := ProductManager.AddProduct(empty, "Widget", 999, "W1", 10, "General", "");
            var r := RecordSaleFlow(added.db, "W1", 3, None, now);
            && added.result.Ok?
            && r.outcome.Recorded?
            && LineTotal(r.outcome.sale) == 2997
            && |r.db.sales| == 1
            && r.db.products == [added.result.value.(stockQuantity := 7)]
  {
    var empty := Db([], [], 0, 0);
    var added := ProductManager.AddProduct(empty, "Widget", 999, "W1", 10, "General", "");
    var p := added.result.value;
    assert added.db.products == [p];
    assert FindBySku(added.db.products, "W1") == Some(p);
    assert FindById(added.db.products, p.id) == Some(p);
  }
}

=== FILE: ledger.dfy ===
/** The hosted database as an immutable value: the `products` and `sales`
    tables in insertion order (inserts append), and the counters from which
    the service draws fresh row ids. Every database call of the managers is one
    of the pure lookups and updates below. */
module Ledger {
  import opened Common

  /** Value of `min_stock_level` for a product row that does not set it. */
  const DefaultMinStock: int := 5
  /** Category given to a product whose category is left empty. */
  const DefaultCategory: string := "General"

  /** A `products` row. Prices are whole cents; ids carry no meaning beyond identity. */
  datatype Product = Product(
    id: nat,
    name: string,
    sku: string,
    price: int,
    stockQuantity: int,
    minStockLevel: int,
    category: string,
    description: string)

  /** A `sale_date` value: the instant in seconds, and its ISO text, whose first
      ten characters are the `YYYY-MM-DD` day. */
  datatype Stamp = Stamp(time: int, text: string)

  /** A `sales` row. */
  datatype Sale = Sale(
    id: nat,
    productId: nat,
    quantitySold: int,
    salePrice: int,
    saleDate: Stamp)

  datatype Db = Db(
    products: seq<Product>,
    sales: seq<Sale>,
    nextProductId: nat,
    nextSaleId: nat)

  /** The database after one manager call, and what the call returned. */
  datatype Step<+T> = Step(db: Db, result: Result<T>)

  /** The service hands out unused ids: every stored id is below its counter
      and no two rows of a table share an id. */
  ghost predicate Valid(db: Db) {
    && (forall i | 0 <= i < |db.products| :: db.products[i].id < db.nextProductId)
    && (forall i, j | 0 <= i < j < |db.products| :: db.products[i].id != db.products[j].id)
    && (forall i | 0 <= i < |db.sales| :: db.sales[i].id < db.nextSaleId)
    && (forall i, j | 0 <= i < j < |db.sales| :: db.sales[i].id != db.sales[j].id)
  }

  // ---------------------------------------------------------------- lookups

  /** The column a lookup filters on, with the value it looks for. */
  datatype Key = ById(id: nat) | BySku(sku: string)

  /** `eq(column, value)` holds of the row. */
  predicate HasKey(p: Product, k: Key) {
    match k
    case ById(id) => p.id == id
    case BySku(sku) => p.sku == sku
  }

  /** Position of the first row with the key, or |ps| when there is none. */
  function IndexOf(ps: seq<Product>, k: Key): (i: nat)
    ensures i <= |ps|
    ensures forall j | 0 <= j < i :: !HasKey(ps[j], k)
    ensures i < |ps| ==> HasKey(ps[i], k)
  {
    if |ps| == 0 then 0
    else if HasKey(ps[0], k) then 0
    else 1 + IndexOf(ps[1..], k)
  }

  /** `select * from products where sku = ?`, first row or nothing; the
      comparison is exact (case-sensitive). */
  function FindBySku(ps: seq<Product>, sku: string): (r: Option<Product>)
    ensures r.None? <==> forall j | 0 <= j < |ps| :: ps[j].sku != sku
    ensures r.Some? ==> r.value.sku == sku && r.value == ps[IndexOf(ps, BySku(sku))]
  {
    var i := IndexOf(ps, BySku(sku));
    if i < |ps| then Some(ps[i]) else None
  }

  /** `select * from products where id = ?`, first row or nothing. */
  function FindById(ps: seq<Product>, id: nat): (r: Option<Product>)
    ensures r.None? <==> forall j | 0 <= j < |ps| :: ps[j].id != id
    ensures r.Some? ==> r.value.id == id && r.value == ps[IndexOf(ps, ById(id))]
  {
    var i := IndexOf(ps, ById(id));
    if i < |ps| then Some(ps[i]) else None
  }

  /** Appending a row leaves earlier matches in front: the appended row is
      found only when no earlier row matches. */
  lemma {:induction false} FindAfterAppend(ps: seq<Product>, p: Product, id: nat, sku: string)
    ensures FindBySku(ps + [p], sku) ==
              if FindBySku(ps, sku).Some? then FindBySku(ps, sku)
              else if p.sku == sku then Some(p) else None
    ensures FindById(ps + [p], id) ==
              if FindById(ps, id).Some? then FindById(ps, id)
              else if p.id == id then Some(p) else None
    decreases |ps|
  {
    if 0 < |ps| {
      assert (ps + [p])[1..] == ps[1..] + [p];
      FindAfterAppend(ps[1..], p, id, sku);
    }
  }

  /** Two tables whose rows carry the same ids and SKUs, position by position. */
  ghost predicate SameKeys(a: seq<Product>, b: seq<Product>) {
    |a| == |b| && forall i | 0 <= i < |a| :: a[i].id == b[i].id && a[i].sku == b[i].sku
  }

  /** Lookups depend only on the ids and SKUs of the rows. */
  lemma {:induction false} SameKeysSameIndex(a: seq<Product>, b: seq<Product>, k: Key)
    requires SameKeys(a, b)
    ensures IndexOf(a, k) == IndexOf(b, k)
    decreases |a|
  {
    if 0 < |a| {
      SameKeysSameIndex(a[1..], b[1..], k);
    }
  }

  // ----------------------------------------------------------------- writes

  /** `insert into products`: the service appends the row under a fresh id. */
  function InsertProduct(db: Db, name: string, sku: string, price: int, stock: int,
                         minStock: int, category: string, description: string): (r: (Db, Product))
    ensures r.0.products == db.products + [r.1] && r.0.sales == db.sales
    ensures && r.1.name == name && r.1.sku == sku && r.1.price == price
            && r.1.stockQuantity == stock && r.1.minStockLevel == minStock
            && r.1.category == category && r.1.description == description
    ensures Valid(db) ==> forall i | 0 <= i < |db.products| :: db.products[i].id != r.1.id
  {
    var p := Product(db.nextProductId, name, sku, price, stock, minStock, category, description);
    (db.(products := db.products + [p], nextProductId := db.nextProductId + 1), p)
  }

  /** `insert into sales`: the service appends the row under a fresh id. */
  function InsertSale(db: Db, productId: nat, quantity: int, price: int, date: Stamp): (r: (Db, Sale))
    ensures r.0.sales == db.sales + [r.1] && r.0.products == db.products
    ensures && r.1.productId == productId && r.1.quantitySold == quantity
            && r.1.salePrice == price && r.1.saleDate == date
    ensures Valid(db) ==> forall i | 0 <= i < |db.sales| :: db.sales[i].id != r.1.id
  {
    var s := Sale(db.nextSaleId, productId, quantity, price, date);
    (db.(sales := db.sales + [s], nextSaleId := db.nextSaleId + 1), s)
  }

  /** `update products set stock_quantity = v where id = ?`: every row with the
      id takes the new stock and nothing else changes. */
  function SetStock(ps: seq<Product>, id: nat, v: int): (r: seq<Product>)
    ensures |r| == |ps|
    ensures forall i | 0 <= i < |ps| ::
              r[i] == if ps[i].id == id then ps[i].(stockQuantity := v) else ps[i]
  {
    if |ps| == 0 then []
    else [if ps[0].id == id then ps[0].(stockQuantity := v) else ps[0]] + SetStock(ps[1..], id, v)
  }

  /** The rows with this id, in table order: what an update by id reports back. */
  function WithId(ps: seq<Product>, id: nat): (r: seq<Product>)
    ensures forall p :: p in r <==> p in ps && p.id == id
  {
    if |ps| == 0 then []
    else (if ps[0].id == id then [ps[0]] else []) + WithId(ps[1..], id)
  }

  /** Only the rows with `id` changed, and each of them only in its stock, which is now `v`. */
  ghost predicate StockSetTo(before: seq<Product>, after: seq<Product>, id: nat, v: int) {
    && |after| == |before|
    && forall i | 0 <= i < |before| ::
         if before[i].id == id then after[i] == before[i].(stockQuantity := v) else after[i] == before[i]
  }

  /** A stock write is seen by a later lookup by id or by SKU, and changes
      nothing else about which row is found. */
  lemma StockSetLookups(before: seq<Product>, after: seq<Product>, id: nat, v: int, pid: nat, sku: string)
    requires StockSetTo(before, after, id, v)
    ensures FindById(after, pid) ==
              match FindById(before, pid)
              case None => None
              case Some(p) => Some(if p.id == id then p.(stockQuantity := v) else p)
    ensures FindBySku(after, sku) ==
              match FindBySku(before, sku)
              case None => None
              case Some(p) => Some(if p.id == id then p.(stockQuantity := v) else p)
  {
    SameKeysSameIndex(before, after, ById(pid));
    SameKeysSameIndex(before, after, BySku(sku));
  }

  // ------------------------------------------------------------- aggregates

  /** What one sale brought in: price times quantity, in cents. */
  function LineTotal(s: Sale): int {
    s.salePrice * s.quantitySold
  }

  /** Σ sale_price × quantity_sold. */
  function Revenue(sales: seq<Sale>): int {
    if |sales| == 0 then 0 else Revenue(sales[..|sales| - 1]) + LineTotal(sales[|sales| - 1])
  }

  /** Σ quantity_sold. */
  function ItemsSold(sales: seq<Sale>): int {
    if |sales| == 0 then 0 else ItemsSold(sales[..|sales| - 1]) + sales[|sales| - 1].quantitySold
  }

  /** Σ quantity_sold over the sales of one product. */
  function SoldOf(sales: seq<Sale>, pid: nat): int {
    if |sales| == 0 then 0
    else SoldOf(sales[..|sales| - 1], pid)
         + (if sales[|sales| - 1].productId == pid then sales[|sales| - 1].quantitySold else 0)
  }

  /** Appending a sale adds its units to its own product's count only. */
  lemma SoldOfAppend(sales: seq<Sale>, s: Sale, pid: nat)
    ensures SoldOf(sales + [s], pid) == SoldOf(sales, pid) + if s.productId == pid then s.quantitySold else 0
  {
    assert (sales + [s])[..|sales|] == sales;
  }

  /** Stock read back for a product id: the first row's, or 0 when there is none. */
  function StockOf(ps: seq<Product>, pid: nat): int {
    match FindById(ps, pid)
    case None => 0
    case Some(p) => p.stockQuantity
  }

  /** Every product's stock is at least zero. */
  ghost predicate StockNonNegative(ps: seq<Product>) {
    forall i | 0 <= i < |ps| :: 0 <= ps[i].stockQuantity
  }

  // ------------------------------------------------------------- invariants

  lemma InsertProductKeepsValid(db: Db, name: string, sku: string, price: int, stock: int,
                                minStock: int, category: string, description: string)
    requires Valid(db)
    ensures Valid(InsertProduct(db, name, sku, price, stock, minStock, category, description).0)
  {
  }

  lemma InsertSaleKeepsValid(db: Db, productId: nat, quantity: int, price: int, date: Stamp)
    requires Valid(db)
    ensures Valid(InsertSale(db, productId, quantity, price, date).0)
  {
  }

  /** A stock write changes no id, so the ids stay unique. */
  lemma StockSetKeepsValid(before: Db, after: Db, id: nat, v: int)
    requires Valid(before)
    requires StockSetTo(before.products, after.products, id, v)
    requires after == before.(products := after.products)
    ensures Valid(after)
  {
  }
}

=== FILE: product_manager.dfy ===
/** `ProductManager` of the terminal application: validated product insert
    with SKU de-duplication, case-insensitive search, the low-stock filter and
    the guarded stock update. The catalogue is `db.products` in insertion
    order; the service's sort by name is not modelled, so "catalogue order"
    below means insertion order. */
module ProductManager {
  import opened Common
  import opened Ledger
  import Text

  const NameSkuRequired := "Product name and SKU are required!"
  const PriceNotPositive := "Price must be greater than 0!"
  const NegativeInitialStock := "Stock quantity cannot be negative!"
  const NegativeStock := "Stock cannot be negative!"

  /** The input guards of `add_product`, first failing one wins. */
  function CheckNewProduct(name: string, sku: string, price: int, initialStock: int): (r: Option<Error>)
    ensures r.None? <==> name != [] && sku != [] && 0 < price && 0 <= initialStock
  {
    if name == [] || sku == [] then Some(Message(NameSkuRequired))
    else if price <= 0 then Some(Message(PriceNotPositive))
    else if initialStock < 0 then Some(Message(NegativeInitialStock))
    else None
  }

  /** `add_product`: validate, refuse a SKU that is already stored (exact
      match), otherwise store one product with the default minimum stock. */
  function AddProduct(db: Db, name: string, price: int, sku: string, initialStock: int,
                      category: string, description: string): (r: Step<Product>)
    ensures name == [] || sku == [] ==> r == Step(db, Err(Message(NameSkuRequired)))
    ensures name != [] && sku != [] && price <= 0 ==> r == Step(db, Err(Message(PriceNotPositive)))
    ensures name != [] && sku != [] && 0 < price && initialStock < 0 ==>
              r == Step(db, Err(Message(NegativeInitialStock)))
    ensures CheckNewProduct(name, sku, price, initialStock).None? && FindBySku(db.products, sku).Some? ==>
              r == Step(db, Err(SkuExists(sku)))
    ensures r.result.Ok? <==>
              CheckNewProduct(name, sku, price, initialStock).None? &&
              forall i | 0 <= i < |db.products| :: db.products[i].sku != sku
    ensures r.result.Ok? ==>
              && r.db.products == db.products + [r.result.value]
              && r.db.sales == db.sales
              && r.result.value.name == name && r.result.value.sku == sku
              && r.result.value.price == price && r.result.value.stockQuantity == initialStock
              && r.result.value.minStockLevel == DefaultMinStock
              && r.result.value.category == category && r.result.value.description == description
  {
    match CheckNewProduct(name, sku, price, initialStock)
    case Some(e) => Step(db, Err(e))
    case None =>
      if FindBySku(db.products, sku).Some? then Step(db, Err(SkuExists(sku)))
      else
        var (db', p) := InsertProduct(db, name, sku, price, initialStock, DefaultMinStock, category, description);
        Step(db', Ok(p))
  }

  /** A product just added is what a lookup by its SKU returns. */
  lemma AddThenFindBySku(db: Db, name: string, price: int, sku: string, initialStock: int,
                         category: string, description: string)
    ensures var r := AddProduct(db, name, price, sku, initialStock, category, description);
            r.result.Ok? ==> FindBySku(r.db.products, sku) == Some(r.result.value)
  {
    var r := AddProduct(db, name, price, sku, initialStock, category, description);
    if r.result.Ok? {
      FindAfterAppend(db.products, r.result.value, 0, sku);
    }
  }

  /** No two products share a SKU. */
  ghost predicate SkusUnique(ps: seq<Product>) {
    forall i, j | 0 <= i < j < |ps| :: ps[i].sku != ps[j].sku
  }

  /** The SKU check keeps SKUs unique and fresh ids keep ids unique. */
  lemma AddProductKeepsInvariants(db: Db, name: string, price: int, sku: string, initialStock: int,
                                  category: string, description: string)
    requires Valid(db) && SkusUnique(db.products)
    ensures var r := AddProduct(db, name, price, sku, initialStock, category, description);
            Valid(r.db) && SkusUnique(r.db.products)
  {
    var r := AddProduct(db, name, price, sku, initialStock, category, description);
    if r.result.Ok? {
      InsertProductKeepsValid(db, name, sku, price, initialStock, DefaultMinStock, category, description);
    }
  }

  // ------------------------------------------------------------------ search

  /** The lower-cased term occurs in the lower-cased name or the lower-cased SKU. */
  predicate Matches(term: string, p: Product) {
    Text.Contains(Text.Lower(p.name), Text.Lower(term)) || Text.Contains(Text.Lower(p.sku), Text.Lower(term))
  }

  /** The matching products, in catalogue order. */
  function MatchingProducts(ps: seq<Product>, term: string): (r: seq<Product>)
    ensures |r| <= |ps|
    ensures forall p :: p in r <==> p in ps && Matches(term, p)
  {
    if |ps| == 0 then []
    else (if Matches(term, ps[0]) then [ps[0]] else []) + MatchingProducts(ps[1..], term)
  }

  /** `search_products`: an empty term lists the whole catalogue; otherwise
      the products whose name or SKU contains the term, ignoring case. */
  function SearchProducts(ps: seq<Product>, term: string): (r: seq<Product>)
    ensures term == [] ==> r == ps
    ensures forall p :: p in r <==> p in ps && Matches(term, p)
  {
    if term == [] then ps else MatchingProducts(ps, term)
  }

  /** Search distributes over concatenation of catalogues, so the results keep
      catalogue order and a one-product catalogue is kept exactly when it matches. */
  lemma {:induction false} SearchConcat(a: seq<Product>, b: seq<Product>, term: string)
    ensures SearchProducts(a + b, term) == SearchProducts(a, term) + SearchProducts(b, term)
    ensures SearchProducts([], term) == []
    ensures forall p :: SearchProducts([p], term) == if Matches(term, p) then [p] else []
    decreases |a|
  {
    if term != [] && 0 < |a| {
      assert (a + b)[1..] == a[1..] + b;
      SearchConcat(a[1..], b, term);
    } else if term != [] {
      assert a + b == b;
    }
  }

  /** The search ignores case: searching for the lower-cased term gives the same products. */
  lemma {:induction false} SearchIgnoresCase(ps: seq<Product>, term: string)
    ensures SearchProducts(ps, Text.Lower(term)) == SearchProducts(ps, term)
    decreases |ps|
  {
    Text.LowerIdempotent(term);
    if term != [] && 0 < |ps| {
      SearchIgnoresCase(ps[1..], term);
    }
  }

  // --------------------------------------------------------------- low stock

  /** `get_low_stock_products`: the products strictly below their minimum, in catalogue order. */
  function LowStockProducts(ps: seq<Product>): (r: seq<Product>)
    ensures |r| <= |ps|
    ensures forall p :: p in r <==> p in ps && p.stockQuantity < p.minStockLevel
  {
    if |ps| == 0 then []
    else (if ps[0].stockQuantity < ps[0].minStockLevel then [ps[0]] else [])
         + LowStockProducts(ps[1..])
  }

  /** The low-stock filter distributes over concatenation: it keeps catalogue order. */
  lemma {:induction false} LowStockConcat(a: seq<Product>, b: seq<Product>)
    ensures LowStockProducts(a + b) == LowStockProducts(a) + LowStockProducts(b)
    decreases |a|
  {
    if 0 < |a| {
      assert (a + b)[1..] == a[1..] + b;
      LowStockConcat(a[1..], b);
    } else {
      assert a + b == b;
    }
  }

  /** After an insert the low-stock list grows by the new product exactly when
      its initial stock is below the default minimum of 5, so a product added
      with 5 units is not low on stock. */
  lemma AddProductLowStock(db: Db, name: string, price: int, sku: string, initialStock: int,
                           category: string, description: string)
    ensures var r := AddProduct(db, name, price, sku, initialStock, category, description);
            r.result.Ok? ==>
              LowStockProducts(r.db.products) ==
                LowStockProducts(db.products) + if initialStock < DefaultMinStock then [r.result.value] else []
  {
    var r := AddProduct(db, name, price, sku, initialStock, category, description);
    if r.result.Ok? {
      LowStockConcat(db.products, [r.result.value]);
    }
  }

  // ------------------------------------------------------------ stock update

  /** `update_stock`: a negative stock is refused before the store is touched;
      otherwise every row with the id takes the new stock and the updated rows
      are returned. */
  function UpdateStock(db: Db, productId: nat, newStock: int): (r: Step<seq<Product>>)
    ensures newStock < 0 ==> r == Step(db, Err(Message(NegativeStock)))
    ensures 0 <= newStock ==>
              && r.result.Ok?
              && StockSetTo(db.products, r.db.products, productId, newStock)
              && r.db == db.(products := r.db.products)
              && forall p :: p in r.result.value <==> p in r.db.products && p.id == productId
  {
    if newStock < 0 then Step(db, Err(Message(NegativeStock)))
    else
      var ps := SetStock(db.products, productId, newStock);
      Step(db.(products := ps), Ok(WithId(ps, productId)))
  }

  /** A stock update is read back by the next lookup of that product. */
  lemma UpdateThenFind(db: Db, productId: nat, newStock: int)
    requires 0 <= newStock
    ensures var r := UpdateStock(db, productId, newStock);
            FindById(r.db.products, productId) ==
              match FindById(db.products, productId)
              case None => None
              case Some(p) => Some(p.(stockQuantity := newStock))
  {
    var r := UpdateStock(db, productId, newStock);
    StockSetLookups(db.products, r.db.products, productId, newStock, productId, []);
  }
}

=== FILE: sales_manager.dfy ===
/** `SalesManager` of the terminal application: recording a sale at the
    listed or an explicit price, the windowed sales report, and the daily
    breakdown grouped by the `YYYY-MM-DD` prefix of `sale_date`. */
module SalesManager {
  import opened Common
  import opened Ledger
  import Text

  const ProductNotFound := "Product not found!"
  const QuantityNotPositive := "Quantity must be greater than 0!"
  const SalePriceNotPositive := "Sale price must be greater than 0!"

  /** Length of `timedelta(days=1)` in the seconds of `Stamp.time`. */
  const SecondsPerDay: int := 86400

  // ------------------------------------------------------------ record_sale

  /** The price a sale is recorded at: the explicit one when given, else the
      listed price of the product, else nothing (the product is unknown). */
  function PriceToUse(db: Db, productId: nat, salePrice: Option<int>): Option<int> {
    if salePrice.Some? then salePrice
    else match FindById(db.products, productId)
      case None => None
      case Some(p) => Some(p.price)
  }

  /** `record_sale`. The service stamps the row with its clock `now`. Stock is
      neither checked nor changed here. */
  function RecordSale(db: Db, productId: nat, quantitySold: int, salePrice: Option<int>, now: Stamp): (r: Step<Sale>)
    ensures r.result.Err? ==> r.db == db
    ensures salePrice.None? && FindById(db.products, productId).None? ==>
              r.result == Err(Message(ProductNotFound))
    ensures (salePrice.Some? || FindById(db.products, productId).Some?) && quantitySold <= 0 ==>
              r.result == Err(Message(QuantityNotPositive))
    ensures salePrice.Some? && 0 < quantitySold && salePrice.value <= 0 ==>
              r.result == Err(Message(SalePriceNotPositive))
    ensures salePrice.None? && 0 < quantitySold && FindById(db.products, productId).Some? &&
            FindById(db.products, productId).value.price <= 0 ==>
              r.result == Err(Message(SalePriceNotPositive))
    ensures r.result.Ok? <==>
              0 < quantitySold &&
              match PriceToUse(db, productId, salePrice)
              case None => false
              case Some(v) => 0 < v
    ensures r.result.Ok? ==>
              && r.db.sales == db.sales + [r.result.value]
              && r.db.products == db.products
              && r.result.value.productId == productId
              && r.result.value.quantitySold == quantitySold
              && Some(r.result.value.salePrice) == PriceToUse(db, productId, salePrice)
              && r.result.value.saleDate == now
  {
    match PriceToUse(db, productId, salePrice)
    case None => Step(db, Err(Message(ProductNotFound)))
    case Some(price) =>
      if quantitySold <= 0 then Step(db, Err(Message(QuantityNotPositive)))
      else if price <= 0 then Step(db, Err(Message(SalePriceNotPositive)))
      else
        var (db', s) := InsertSale(db, productId, quantitySold, price, now);
        Step(db', Ok(s))
  }

  // -------------------------------------------------------- get_sales_report

  /** The report without its two date strings and the average, which divides. */
  datatype Report = Report(periodDays: int, totalSales: nat, totalRevenue: int, totalItemsSold: int)

  /** The sales stamped strictly after the cutoff, in order. */
  function InWindow(sales: seq<Sale>, cutoff: int): (r: seq<Sale>)
    ensures |r| <= |sales|
    ensures forall s :: s in r <==> s in sales && cutoff < s.saleDate.time
  {
    if |sales| == 0 then []
    else
      var last := sales[|sales| - 1];
      InWindow(sales[..|sales| - 1], cutoff) + if cutoff < last.saleDate.time then [last] else []
  }

  /** The window filter distributes over concatenation: each in-window sale
      is kept once, in log order. */
  lemma {:induction false} InWindowConcat(a: seq<Sale>, b: seq<Sale>, cutoff: int)
    ensures InWindow(a + b, cutoff) == InWindow(a, cutoff) + InWindow(b, cutoff)
    decreases |b|
  {
    if |b| == 0 {
      assert a + b == a;
    } else {
      var init := b[..|b| - 1];
      var last := b[|b| - 1];
      assert (a + b)[..|a + b| - 1] == a + init;
      InWindowConcat(a, init, cutoff);
      var tail := if cutoff < last.saleDate.time then [last] else [];
      calc {
        InWindow(a + b, cutoff);
        InWindow(a + init, cutoff) + tail;
        (InWindow(a, cutoff) + InWindow(init, cutoff)) + tail;
        InWindow(a, cutoff) + (InWindow(init, cutoff) + tail);
        InWindow(a, cutoff) + InWindow(b, cutoff);
      }
    }
  }

  /** A one-sale log keeps its sale exactly when it is after the cutoff. */
  lemma InWindowSingle(s: Sale, cutoff: int)
    ensures InWindow([s], cutoff) == if cutoff < s.saleDate.time then [s] else []
  {
    assert [s][..0] == [];
  }

  /** `now - timedelta(days=days)`. */
  function Cutoff(now: int, days: int): int {
    now - days * SecondsPerDay
  }

  /** `get_sales_report(days)` at clock `now`: count, revenue and items of the
      sales strictly inside the window; all zero when the window is empty. */
  function SalesReport(sales: seq<Sale>, days: int, now: int): (r: Report)
    ensures r.periodDays == days
    ensures r.totalSales == |InWindow(sales, Cutoff(now, days))|
    ensures r.totalRevenue == Revenue(InWindow(sales, Cutoff(now, days)))
    ensures r.totalItemsSold == ItemsSold(InWindow(sales, Cutoff(now, days)))
    ensures (forall i | 0 <= i < |sales| :: sales[i].saleDate.time <= Cutoff(now, days)) ==>
              r == Report(days, 0, 0, 0)
  {
    var recent := InWindow(sales, Cutoff(now, days));
    if |recent| == 0 then Report(days, 0, 0, 0)
    else Report(days, |recent|, Revenue(recent), ItemsSold(recent))
  }

  /** A wider window never counts fewer sales. */
  lemma {:induction false} WindowMonotone(sales: seq<Sale>, c1: int, c2: int)
    requires c2 <= c1
    ensures |InWindow(sales, c1)| <= |InWindow(sales, c2)|
    decreases |sales|
  {
    if 0 < |sales| {
      WindowMonotone(sales[..|sales| - 1], c1, c2);
    }
  }

  /** Reporting over more days counts at least as many sales. */
  lemma ReportMonotone(sales: seq<Sale>, d1: int, d2: int, now: int)
    requires d1 <= d2
    ensures SalesReport(sales, d1, now).totalSales <= SalesReport(sales, d2, now).totalSales
  {
    WindowMonotone(sales, Cutoff(now, d1), Cutoff(now, d2));
  }

  /** A sale recorded inside the window adds one sale, its line total and its
      quantity to the next report. */
  lemma RecordSaleReported(db: Db, productId: nat, quantitySold: int, salePrice: Option<int>,
                           now: Stamp, days: int, clock: int)
    requires Cutoff(clock, days) < now.time
    ensures var r := RecordSale(db, productId, quantitySold, salePrice, now);
            var before := SalesReport(db.sales, days, clock);
            r.result.Ok? ==>
              SalesReport(r.db.sales, days, clock) ==
                Report(days, before.totalSales + 1,
                       before.totalRevenue + LineTotal(r.result.value),
                       before.totalItemsSold + quantitySold)
  {
    var r := RecordSale(db, productId, quantitySold, salePrice, now);
    if r.result.Ok? {
      var c := Cutoff(clock, days);
      assert (db.sales + [r.result.value])[..|db.sales|] == db.sales;
      var w := InWindow(db.sales, c);
      assert InWindow(r.db.sales, c) == w + [r.result.value];
      assert (w + [r.result.value])[..|w|] == w;
    }
  }

  lemma RecordSaleKeepsValid(db: Db, productId: nat, quantitySold: int, salePrice: Option<int>, now: Stamp)
    requires Valid(db)
    ensures Valid(RecordSale(db, productId, quantitySold, salePrice, now).db)
  {
  }

  /** With an explicit price the product is never looked up, so a sale is
      stored for an id that no product has; only a foreign key on
      `sales.product_id` would refuse it. */
  lemma RecordSaleUnknownProduct(db: Db, productId: nat, quantitySold: int, price: int, now: Stamp)
    requires FindById(db.products, productId).None?
    requires 0 < quantitySold && 0 < price
    ensures var r := RecordSale(db, productId, quantitySold, Some(price), now);
            && r.result.Ok?
            && r.result.value.productId == productId
            && r.db.sales == db.sales + [r.result.value]
            && FindById(r.db.products, productId).None?
  {
  }

  // --------------------------------------------------------- get_daily_sales

  /** `sale['sale_date'][:10]`. */
  function DayKey(s: Sale): string {
    SliceTo(s.saleDate.text, 10)
  }

  /** One entry of the daily breakdown. */
  datatype DayTotal = DayTotal(date: string, totalSales: nat, totalRevenue: int, itemsSold: int)

  /** An entry with one more sale counted in. */
  function Bump(t: DayTotal, s: Sale): DayTotal {
    t.(totalSales := t.totalSales + 1,
       totalRevenue := t.totalRevenue + LineTotal(s),
       itemsSold := t.itemsSold + s.quantitySold)
  }

  /** Reference entry for day `d`: count, revenue and items of the sales whose key is `d`. */
  function SummaryOn(sales: seq<Sale>, d: string): DayTotal {
    if |sales| == 0 then DayTotal(d, 0, 0, 0)
    else
      var t := SummaryOn(sales[..|sales| - 1], d);
      if DayKey(sales[|sales| - 1]) == d then Bump(t, sales[|sales| - 1]) else t
  }

  /** The distinct day keys of the sales. */
  function Days(sales: seq<Sale>): set<string> {
    if |sales| == 0 then {} else Days(sales[..|sales| - 1]) + {DayKey(sales[|sales| - 1])}
  }

  /** The dates the entries carry. */
  function Dates(g: seq<DayTotal>): set<string> {
    set i | 0 <= i < |g| :: g[i].date
  }

  /** Dates strictly decreasing: `sorted(..., reverse=True)` over distinct keys. */
  ghost predicate Descending(g: seq<DayTotal>) {
    forall i, j | 0 <= i < j < |g| :: Text.Below(g[j].date, g[i].date)
  }

  /** Counting one sale into a breakdown kept in descending date order: bump
      its day's entry, or open a new entry at its place. */
  function AddToDays(g: seq<DayTotal>, s: Sale): seq<DayTotal> {
    var k := DayKey(s);
    if |g| == 0 then [Bump(DayTotal(k, 0, 0, 0), s)]
    else if g[0].date == k then [Bump(g[0], s)] + g[1..]
    else if Text.Below(g[0].date, k) then [Bump(DayTotal(k, 0, 0, 0), s)] + g
    else [g[0]] + AddToDays(g[1..], s)
  }

  /** The grouped breakdown of all sales, in the order the loop visits them. */
  function GroupByDay(sales: seq<Sale>): seq<DayTotal> {
    if |sales| == 0 then []
    else AddToDays(GroupByDay(sales[..|sales| - 1]), sales[|sales| - 1])
  }

  /** `get_daily_sales(days)`: the breakdown cut to `daily_list[:days]`. */
  function DailySales(sales: seq<Sale>, days: int): (r: seq<DayTotal>)
    ensures Descending(r)
    ensures forall i | 0 <= i < |r| :: r[i] == SummaryOn(sales, r[i].date)
    ensures Dates(r) <= Days(sales)
    ensures 0 <= days ==> |r| == if days <= |Days(sales)| then days else |Days(sales)|
    ensures days < 0 ==> |r| == if -days <= |Days(sales)| then |Days(sales)| + days else 0
    ensures 0 <= days && |Days(sales)| <= days ==> Dates(r) == Days(sales)
    ensures forall i, d | 0 <= i < |r| && d in Days(sales) && d !in Dates(r) :: Text.Below(d, r[i].date)
  {
    var g := GroupByDay(sales);
    GroupByDayCorrect(sales);
    var r := SliceTo(g, days);
    DatesCard(g);
    DescendingPrefix(g, r);
    r
  }

  /** A prefix of a descending breakdown is descending, and every date it
      leaves out lies below every date it keeps. */
  lemma DescendingPrefix(g: seq<DayTotal>, r: seq<DayTotal>)
    requires Descending(g) && r <= g
    ensures Descending(r)
    ensures Dates(r) <= Dates(g)
    ensures |r| == |g| ==> Dates(r) == Dates(g)
    ensures forall i, d | 0 <= i < |r| && d in Dates(g) && d !in Dates(r) :: Text.Below(d, r[i].date)
  {
    forall m | 0 <= m < |r|
      ensures r[m] == g[m] && g[m].date in Dates(r)
    {
      assert r[m] == g[m];
    }
    forall i, d | 0 <= i < |r| && d in Dates(g) && d !in Dates(r)
      ensures Text.Below(d, r[i].date)
    {
      var j :| 0 <= j < |g| && g[j].date == d;
    }
    if |r| == |g| {
      assert r == g;
    }
  }

  // ----------------------------------------------- correctness of the grouping

  /** Adding a sale to the log changes only its own day's summary. */
  lemma SummaryAppend(sales: seq<Sale>, s: Sale, d: string)
    ensures SummaryOn(sales + [s], d) ==
              if DayKey(s) == d then Bump(SummaryOn(sales, d), s) else SummaryOn(sales, d)
    ensures Days(sales + [s]) == Days(sales) + {DayKey(s)}
  {
    assert (sales + [s])[..|sales|] == sales;
  }

  /** A day with no sales has an empty summary. */
  lemma {:induction false} SummaryOffDay(sales: seq<Sale>, d: string)
    requires d !in Days(sales)
    ensures SummaryOn(sales, d) == DayTotal(d, 0, 0, 0)
    decreases |sales|
  {
    if 0 < |sales| {
      SummaryOffDay(sales[..|sales| - 1], d);
    }
  }

  lemma DatesCons(t: DayTotal, g: seq<DayTotal>)
    ensures Dates([t] + g) == {t.date} + Dates(g)
  {
    var h := [t] + g;
    forall x | x in Dates(g)
      ensures x in Dates(h)
    {
      var i :| 0 <= i < |g| && g[i].date == x;
      assert h[i + 1].date == x;
    }
    assert h[0].date == t.date;
  }

  /** In a descending breakdown every later date lies below the first. */
  lemma BelowHead(g: seq<DayTotal>, d: string)
    requires 0 < |g| && Descending(g) && d in Dates(g[1..])
    ensures Text.Below(d, g[0].date)
  {
    var i :| 0 <= i < |g[1..]| && g[1..][i].date == d;
    assert g[i + 1].date == d;
  }

  /** Counting a sale into a correct breakdown of `sales` gives a correct
      breakdown of `sales + [s]`. */
  lemma {:induction false} AddToDaysCorrect(g: seq<DayTotal>, sales: seq<Sale>, s: Sale)
    requires Descending(g)
    requires forall i | 0 <= i < |g| :: g[i] == SummaryOn(sales, g[i].date)
    requires DayKey(s) in Dates(g) || DayKey(s) !in Days(sales)
    ensures Descending(AddToDays(g, s))
    ensures Dates(AddToDays(g, s)) == Dates(g) + {DayKey(s)}
    ensures forall i | 0 <= i < |AddToDays(g, s)| ::
              AddToDays(g, s)[i] == SummaryOn(sales + [s], AddToDays(g, s)[i].date)
    decreases |g|
  {
    var k := DayKey(s);
    var r := AddToDays(g, s);
    forall d | d != k
      ensures SummaryOn(sales + [s], d) == SummaryOn(sales, d)
    {
      SummaryAppend(sales, s, d);
    }
    SummaryAppend(sales, s, k);
    if |g| == 0 {
      SummaryOffDay(sales, k);
      assert Dates(r) == {k} by { assert r[0].date == k; }
    } else if g[0].date == k {
      forall i | 1 <= i < |g|
        ensures g[i].date != k
      {
        Text.BelowIrreflexive(g[0].date);
      }
      DatesCons(g[0], g[1..]);
      DatesCons(Bump(g[0], s), g[1..]);
      assert g == [g[0]] + g[1..];
    } else if Text.Below(g[0].date, k) {
      assert k !in Dates(g) by {
        forall i | 0 <= i < |g|
          ensures g[i].date != k
        {
          if 0 < i {
            Text.BelowTransitive(g[i].date, g[0].date, k);
          }
          Text.BelowIrreflexive(k);
        }
      }
      SummaryOffDay(sales, k);
      forall j | 0 < j < |g|
        ensures Text.Below(g[j].date, k)
      {
        Text.BelowTransitive(g[j].date, g[0].date, k);
      }
      DatesCons(Bump(DayTotal(k, 0, 0, 0), s), g);
    } else {
      Text.BelowTotal(g[0].date, k);
      var rest := AddToDays(g[1..], s);
      assert g == [g[0]] + g[1..];
      DatesCons(g[0], g[1..]);
      AddToDaysCorrect(g[1..], sales, s);
      DatesCons(g[0], rest);
      assert r == [g[0]] + rest;
      forall j | 0 <= j < |rest|
        ensures Text.Below(rest[j].date, g[0].date)
      {
        assert rest[j].date in Dates(rest);
        if rest[j].date != k {
          BelowHead(g, rest[j].date);
        }
      }
    }
  }

  /** The breakdown has one entry per distinct day, in descending date order,
      and each entry holds exactly the counts and sums of that day's sales. */
  lemma {:induction false} GroupByDayCorrect(sales: seq<Sale>)
    ensures Descending(GroupByDay(sales))
    ensures Dates(GroupByDay(sales)) == Days(sales)
    ensures forall i | 0 <= i < |GroupByDay(sales)| ::
              GroupByDay(sales)[i] == SummaryOn(sales, GroupByDay(sales)[i].date)
    decreases |sales|
  {
    if 0 < |sales| {
      var init := sales[..|sales| - 1];
      var last := sales[|sales| - 1];
      GroupByDayCorrect(init);
      AddToDaysCorrect(GroupByDay(init), init, last);
      assert init + [last] == sales;
      SummaryAppend(init, last, DayKey(last));
    }
  }

  /** A descending breakdown has as many entries as dates. */
  lemma {:induction false} DatesCard(g: seq<DayTotal>)
    requires Descending(g)
    ensures |Dates(g)| == |g|
    decreases |g|
  {
    if 0 < |g| {
      DatesCard(g[1..]);
      DatesCons(g[0], g[1..]);
      assert g == [g[0]] + g[1..];
      Text.BelowIrreflexive(g[0].date);
      assert g[0].date !in Dates(g[1..]) by {
        if g[0].date in Dates(g[1..]) {
          BelowHead(g, g[0].date);
        }
      }
    }
  }

  // ------------------------------------------------------ totals of the days

  /** Count, revenue and items added up. */
  datatype Totals = Totals(count: int, revenue: int, items: int)

  function SumDays(g: seq<DayTotal>): Totals {
    if |g| == 0 then Totals(0, 0, 0)
    else
      var t := SumDays(g[1..]);
      Totals(g[0].totalSales + t.count, g[0].totalRevenue + t.revenue, g[0].itemsSold + t.items)
  }

  function SalesTotals(sales: seq<Sale>): Totals {
    Totals(|sales|, Revenue(sales), ItemsSold(sales))
  }

  lemma {:induction false} AddToDaysTotals(g: seq<DayTotal>, s: Sale)
    ensures SumDays(AddToDays(g, s)) ==
              Totals(SumDays(g).count + 1, SumDays(g).revenue + LineTotal(s), SumDays(g).items + s.quantitySold)
    decreases |g|
  {
    if 0 < |g| && g[0].date != DayKey(s) && !Text.Below(g[0].date, DayKey(s)) {
      AddToDaysTotals(g[1..], s);
      assert ([g[0]] + AddToDays(g[1..], s))[1..] == AddToDays(g[1..], s);
    } else if 0 < |g| && g[0].date == DayKey(s) {
      assert ([Bump(g[0], s)] + g[1..])[1..] == g[1..];
    } else if 0 < |g| {
      assert ([Bump(DayTotal(DayKey(s), 0, 0, 0), s)] + g)[1..] == g;
    }
  }

  /** The entries of the full breakdown add up to the totals of all sales:
      nothing is lost or counted twice by the grouping. */
  lemma {:induction false} GroupByDayTotals(sales: seq<Sale>)
    ensures SumDays(GroupByDay(sales)) == SalesTotals(sales)
    decreases |sales|
  {
    if 0 < |sales| {
      GroupByDayTotals(sales[..|sales| - 1]);
      AddToDaysTotals(GroupByDay(sales[..|sales| - 1]), sales[|sales| - 1]);
    }
  }

  /** When every sale falls inside the window the report and the full daily
      breakdown agree on count, revenue and items. */
  lemma ReportMatchesDaily(sales: seq<Sale>, days: int, now: int)
    requires forall i | 0 <= i < |sales| :: Cutoff(now, days) < sales[i].saleDate.time
    ensures var rep := SalesReport(sales, days, now);
            SumDays(GroupByDay(sales)) == Totals(rep.totalSales, rep.totalRevenue, rep.totalItemsSold)
  {
    AllInWindow(sales, Cutoff(now, days));
    GroupByDayTotals(sales);
  }

  lemma {:induction false} AllInWindow(sales: seq<Sale>, cutoff: int)
    requires forall i | 0 <= i < |sales| :: cutoff < sales[i].saleDate.time
    ensures InWindow(sales, cutoff) == sales
    decreases |sales|
  {
    if 0 < |sales| {
      AllInWindow(sales[..|sales| - 1], cutoff);
      assert sales[..|sales| - 1] + [sales[|sales| - 1]] == sales;
    }
  }
}

=== FILE: supabase_db.dfy ===
/** `SupabaseDB` of the HTTP API (src/db.py): product insert and stock update
    without validation, the stock-checked sale insert with its decrement, and
    the sale listing with its `quantity` alias. */
module SupabaseDb {
  import opened Common
  import opened Ledger

  const ProductNotFound := "Product not found"

  /** `create_product`: stores the four given columns exactly; the other
      columns take the table defaults. No validation and no SKU check. */
  function CreateProduct(db: Db, name: string, sku: string, price: int, stockQuantity: int): (r: Step<Product>)
    ensures r.result.Ok?
    ensures r.db.products == db.products + [r.result.value] && r.db.sales == db.sales
    ensures && r.result.value.name == name && r.result.value.sku == sku
            && r.result.value.price == price && r.result.value.stockQuantity == stockQuantity
    ensures && r.result.value.minStockLevel == DefaultMinStock
            && r.result.value.category == DefaultCategory && r.result.value.description == []
  {
    var (db', p) := InsertProduct(db, name, sku, price, stockQuantity, DefaultMinStock, DefaultCategory, []);
    Step(db', Ok(p))
  }

  /** Because nothing checks the SKU, a second product with a stored SKU is
      accepted and the catalogue then holds that SKU twice. */
  lemma CreateProductAllowsDuplicateSku(db: Db, name: string, sku: string, price: int, stockQuantity: int)
    requires FindBySku(db.products, sku).Some?
    ensures var r := CreateProduct(db, name, sku, price, stockQuantity);
            exists i, j | 0 <= i < j < |r.db.products| :: r.db.products[i].sku == sku && r.db.products[j].sku == sku
  {
    var r := CreateProduct(db, name, sku, price, stockQuantity);
    var i := IndexOf(db.products, BySku(sku));
    assert r.db.products[i].sku == sku && r.db.products[|db.products|].sku == sku;
  }

  /** `update_product_stock`: every row with the id takes the new stock, with
      no lower bound, and the updated rows are returned. */
  function UpdateProductStock(db: Db, productId: nat, newStock: int): (r: Step<seq<Product>>)
    ensures r.result.Ok?
    ensures StockSetTo(db.products, r.db.products, productId, newStock)
    ensures r.db == db.(products := r.db.products)
    ensures forall p :: p in r.result.value <==> p in r.db.products && p.id == productId
  {
    var ps := SetStock(db.products, productId, newStock);
    Step(db.(products := ps), Ok(WithId(ps, productId)))
  }

  /** `create_sale`: look the product up by id, refuse when its stock is
      below the quantity, else insert the sale (dated `saleDate` when given,
      otherwise by the service clock `now`) and write back the read stock
      minus the quantity. */
  function CreateSale(db: Db, productId: nat, quantity: int, salePrice: int,
                      saleDate: Option<Stamp>, now: Stamp): (r: Step<Sale>)
    ensures r.result.Err? ==> r.db == db
    ensures FindById(db.products, productId).None? ==> r.result == Err(Message(ProductNotFound))
    ensures FindById(db.products, productId).Some? &&
            FindById(db.products, productId).value.stockQuantity < quantity ==>
              r.result == Err(OutOfStock(FindById(db.products, productId).value.stockQuantity))
    ensures r.result.Ok? <==>
              FindById(db.products, productId).Some? &&
              quantity <= FindById(db.products, productId).value.stockQuantity
    ensures r.result.Ok? ==>
              var before := FindById(db.products, productId).value.stockQuantity;
              && r.result.value.productId == productId
              && r.result.value.quantitySold == quantity
              && r.result.value.salePrice == salePrice
              && r.result.value.saleDate == (if saleDate.Some? then saleDate.value else now)
              && r.db.sales == db.sales + [r.result.value]
              && StockSetTo(db.products, r.db.products, productId, before - quantity)
  {
    match FindById(db.products, productId)
    case None => Step(db, Err(Message(ProductNotFound)))
    case Some(p) =>
      if p.stockQuantity < quantity then Step(db, Err(OutOfStock(p.stockQuantity)))
      else
        var date := if saleDate.Some? then saleDate.value else now;
        var (db1, s) := InsertSale(db, productId, quantity, salePrice, date);
        Step(db1.(products := SetStock(db1.products, productId, p.stockQuantity - quantity)), Ok(s))
  }

  /** A sale moves units from stock to the sale log: for every product, stock
      plus units sold is the same before and after `create_sale`. */
  lemma CreateSaleConserves(db: Db, productId: nat, quantity: int, salePrice: int,
                            saleDate: Option<Stamp>, now: Stamp, pid: nat)
    ensures var r := CreateSale(db, productId, quantity, salePrice, saleDate, now);
            StockOf(r.db.products, pid) + SoldOf(r.db.sales, pid) ==
              StockOf(db.products, pid) + SoldOf(db.sales, pid)
  {
    var r := CreateSale(db, productId, quantity, salePrice, saleDate, now);
    if r.result.Ok? {
      var p := FindById(db.products, productId).value;
      SaleConserves(db, r.db, r.result.value, p.stockQuantity - quantity, pid);
    }
  }

  /** Recording sale `s` and writing back the read stock minus its quantity
      keeps stock plus units sold unchanged for every product. */
  lemma SaleConserves(before: Db, after: Db, s: Sale, v: int, pid: nat)
    requires FindById(before.products, s.productId).Some?
    requires v == FindById(before.products, s.productId).value.stockQuantity - s.quantitySold
    requires StockSetTo(before.products, after.products, s.productId, v)
    requires after.sales == before.sales + [s]
    ensures StockOf(after.products, pid) + SoldOf(after.sales, pid) ==
              StockOf(before.products, pid) + SoldOf(before.sales, pid)
  {
    StockSetLookups(before.products, after.products, s.productId, v, pid, []);
    SoldOfAppend(before.sales, s, pid);
  }

  /** Nothing in `create_sale` refuses a negative quantity: against a stock of
      zero or more it passes the stock check, the sale is stored, and the
      product's stock goes up. */
  lemma NegativeQuantityRaisesStock(db: Db, productId: nat, quantity: int, salePrice: int,
                                    saleDate: Option<Stamp>, now: Stamp)
    requires FindById(db.products, productId).Some?
    requires 0 <= FindById(db.products, productId).value.stockQuantity
    requires quantity < 0
    ensures var r := CreateSale(db, productId, quantity, salePrice, saleDate, now);
            && r.result.Ok?
            && r.result.value.quantitySold == quantity
            && StockOf(r.db.products, productId) == StockOf(db.products, productId) - quantity
            && StockOf(db.products, productId) < StockOf(r.db.products, productId)
  {
    var r := CreateSale(db, productId, quantity, salePrice, saleDate, now);
    var v := FindById(db.products, productId).value.stockQuantity - quantity;
    StockSetLookups(db.products, r.db.products, productId, v, productId, []);
  }

  /** The stock check means `create_sale` never drives a stock below zero. */
  lemma CreateSaleKeepsStockNonNegative(db: Db, productId: nat, quantity: int, salePrice: int,
                                        saleDate: Option<Stamp>, now: Stamp)
    requires StockNonNegative(db.products)
    ensures StockNonNegative(CreateSale(db, productId, quantity, salePrice, saleDate, now).db.products)
  {
  }

  lemma CreateSaleKeepsValid(db: Db, productId: nat, quantity: int, salePrice: int,
                             saleDate: Option<Stamp>, now: Stamp)
    requires Valid(db)
    ensures Valid(CreateSale(db, productId, quantity, salePrice, saleDate, now).db)
  {
  }

  /** The product columns the sale listing joins in. */
  datatype Listing = Listing(name: string, sku: string)

  /** One row of `get_sales`: the sale, its `quantity` alias, and the joined product. */
  datatype SaleRow = SaleRow(sale: Sale, quantity: int, product: Option<Listing>)

  /** The joined `products(name, sku)` of a sale: the product's name and SKU,
      or nothing when no product has the id. */
  function ListingOf(ps: seq<Product>, pid: nat): (r: Option<Listing>)
    ensures r.Some? <==> FindById(ps, pid).Some?
    ensures r.Some? ==> r.value == Listing(FindById(ps, pid).value.name, FindById(ps, pid).value.sku)
  {
    match FindById(ps, pid)
    case None => None
    case Some(p) => Some(Listing(p.name, p.sku))
  }

  /** `get_sales`: every sale, in order, with `quantity` equal to
      `quantity_sold`; a sale whose product is gone joins to nothing. */
  function GetSales(db: Db): (r: seq<SaleRow>)
    ensures |r| == |db.sales|
    ensures forall i | 0 <= i < |r| ::
              && r[i].sale == db.sales[i]
              && r[i].quantity == db.sales[i].quantitySold
              && (r[i].product.None? <==> forall j | 0 <= j < |db.products| :: db.products[j].id != db.sales[i].productId)
    ensures forall i | 0 <= i < |r| :: r[i].product == ListingOf(db.products, db.sales[i].productId)
  {
    seq(|db.sales|, i requires 0 <= i < |db.sales| =>
      SaleRow(db.sales[i], db.sales[i].quantitySold, ListingOf(db.products, db.sales[i].productId)))
  }

  /** Σ of the `quantity` column of a sale listing. */
  function QuantityTotal(rows: seq<SaleRow>): int {
    if |rows| == 0 then 0 else QuantityTotal(rows[..|rows| - 1]) + rows[|rows| - 1].quantity
  }

  /** Rows whose `quantity` copies `quantity_sold`, sale by sale, add up to the
      units sold. */
  lemma {:induction false} QuantityColumnIsItemsSold(rows: seq<SaleRow>, sales: seq<Sale>)
    requires |rows| == |sales|
    requires forall i | 0 <= i < |rows| :: rows[i].quantity == sales[i].quantitySold
    ensures QuantityTotal(rows) == ItemsSold(sales)
    decreases |rows|
  {
    if 0 < |rows| {
      QuantityColumnIsItemsSold(rows[..|rows| - 1], sales[..|sales| - 1]);
    }
  }

  /** The `quantity` alias of the sale listing sums to the items sold that the
      sales report counts over the same sales. */
  lemma GetSalesQuantityTotal(db: Db)
    ensures QuantityTotal(GetSales(db)) == ItemsSold(db.sales)
  {
    QuantityColumnIsItemsSold(GetSales(db), db.sales);
  }
}

=== FILE: text.dfy ===
/** The string operations the ledger relies on: ASCII lower-casing, Python's
    substring test `needle in hay`, and Python's ordering
    of `str` values (code-point lexicographic order). */
module Text {

  /** ASCII lower-casing of one character; every other character is kept. */
  function LowerChar(c: char): char {
    if 'A' <= c <= 'Z' then (c as int + 32) as char else c
  }

  /** `s.lower()` restricted to ASCII letters: no capital is left, a capital
      becomes the small letter at the same place in the alphabet, every other
      character is kept, and a string without capitals is returned as it is. */
  function Lower(s: string): (r: string)
    ensures |r| == |s|
    ensures forall i | 0 <= i < |r| :: !('A' <= r[i] <= 'Z')
    ensures forall i | 0 <= i < |s| && 'A' <= s[i] <= 'Z' ::
              'a' <= r[i] <= 'z' && r[i] as int - 'a' as int == s[i] as int - 'A' as int
    ensures forall i | 0 <= i < |s| && !('A' <= s[i] <= 'Z') :: r[i] == s[i]
    ensures r == s <==> forall i | 0 <= i < |s| :: !('A' <= s[i] <= 'Z')
  {
    seq(|s|, i requires 0 <= i < |s| => LowerChar(s[i]))
  }

  /** Lower-casing twice is lower-casing once, so a term and its lower-cased
      form select the same products. */
  lemma LowerIdempotent(s: string)
    ensures Lower(Lower(s)) == Lower(s)
  {
  }

  predicate StartsWith(s: string, prefix: string) {
    |prefix| <= |s| && s[..|prefix|] == prefix
  }

  /** `needle` is found in `hay` starting at position `i`. */
  ghost predicate OccursAt(hay: string, needle: string, i: int) {
    0 <= i && i + |needle| <= |hay| && hay[i..i + |needle|] == needle
  }

  /** Python's `needle in hay` on strings, scanning start positions left to right. */
  predicate Contains(hay: string, needle: string)
    decreases |hay|
  {
    StartsWith(hay, needle) || (0 < |hay| && Contains(hay[1..], needle))
  }

  /** Dropping the first character shifts every later occurrence one place left. */
  lemma ShiftOccurs(hay: string, needle: string, i: int)
    requires 0 < |hay| && 1 <= i
    ensures OccursAt(hay, needle, i) <==> OccursAt(hay[1..], needle, i - 1)
  {
    if i + |needle| <= |hay| {
      assert hay[1..][i - 1..i - 1 + |needle|] == hay[i..i + |needle|];
    }
  }

  /** The scan finds the needle exactly when it occurs somewhere. In particular
      the empty string is contained in every string. */
  lemma {:induction false} ContainsIffOccurs(hay: string, needle: string)
    ensures Contains(hay, needle) <==> exists i :: OccursAt(hay, needle, i)
    decreases |hay|
  {
    assert OccursAt(hay, needle, 0) <==> StartsWith(hay, needle);
    if StartsWith(hay, needle) {
      assert OccursAt(hay, needle, 0);
    } else if 0 < |hay| {
      ContainsIffOccurs(hay[1..], needle);
      if Contains(hay[1..], needle) {
        var i :| OccursAt(hay[1..], needle, i);
        ShiftOccurs(hay, needle, i + 1);
      } else {
        forall i
          ensures !OccursAt(hay, needle, i)
        {
          if 1 <= i {
            ShiftOccurs(hay, needle, i);
          }
        }
      }
    }
  }

  /** Python's `a < b` on `str`: code-point lexicographic order, a proper
      prefix coming first. */
  predicate Below(a: string, b: string)
    decreases |a|
  {
    if |a| == 0 then 0 < |b|
    else if |b| == 0 then false
    else if a[0] != b[0] then a[0] < b[0]
    else Below(a[1..], b[1..])
  }

  lemma {:induction false} BelowIrreflexive(a: string)
    ensures !Below(a, a)
    decreases |a|
  {
    if 0 < |a| {
      BelowIrreflexive(a[1..]);
    }
  }

  lemma {:induction false} BelowTransitive(a: string, b: string, c: string)
    requires Below(a, b) && Below(b, c)
    ensures Below(a, c)
    decreases |a|
  {
    if 0 < |a| && a[0] == b[0] && b[0] == c[0] {
      BelowTransitive(a[1..], b[1..], c[1..]);
    }
  }

  /** Any two distinct strings are ordered one way or the other, so sorting by
      date puts distinct dates in one determined order. */
  lemma {:induction false} BelowTotal(a: string, b: string)
    requires a != b
    ensures Below(a, b) || Below(b, a)
    decreases |a|
  {
    if 0 < |a| && 0 < |b| && a[0] == b[0] {
      assert a == [a[0]] + a[1..] && b == [b[0]] + b[1..];
      BelowTotal(a[1..], b[1..]);
    }
  }

  lemma {:induction false} BelowAsymmetric(a: string, b: string)
    requires Below(a, b)
    ensures !Below(b, a)
    decreases |a|
  {
    if 0 < |a| && 0 < |b| && a[0] == b[0] {
      BelowAsymmetric(a[1..], b[1..]);
    }
  }
}
